=== FILE: README.md ===
# CommitStream webhook ingestion, modelled in Dafny

CommitStream collects commits from source-control webhooks into *digests*.
An *instance* (an API tenant) owns digests. A digest owns *inboxes*, one per
repository. A repository's webhook posts its pushes to the inbox. Each route
validates its request, reads a projection (a read model) from the event store,
appends a batch of canonical events to an append-only stream, and answers with
HAL hypermedia. This project models that core:

- **The GitHub push translator** (`translatePush`): one `GitHubCommitReceived`
  event per commit, all-or-nothing.
- **The translator factory**: GitHub first, then GitLab, then none.
- **The routes**: the digest routes (with the ordered description checks and
  the inbox-list hypermedia), the legacy inbox routes, the newer inbox
  router's commits route, the newer commits handler, the instance routes with
  the API-key gate, and the legacy single-digest routes.
- **The names** of streams and projection partitions.

Each route is a pure function from the request and the store's answers to an
`Http.Outcome`. An outcome holds the projection it read (at most one), the
batch it appended (at most one), and what it sent back. A response is one of:

- `Sent(status, body, location)`;
- `Raised(fault)`: handed to the error handler;
- `Silent`: no response is ever sent.

`Store` replays outcomes onto an append-only log of batches.

JSON values (`Json.Value`) follow JavaScript:

- reading a property of `null`/`undefined` throws;
- on other primitives it gives `undefined`;
- a repeated key is one property, at the place of its first occurrence and
  with the value of its last, as `JSON.parse` leaves it;
- `_.keys` lists each own key once; `_.map` walks arrays, strings and
  array-like objects (a numeric `length` from 0 to 2^53 - 1) by index and
  other objects by key; `_.omit` and `_.extend` work key by key;
- string lengths count UTF-16 code units;
- `trim` strips the ECMAScript white-space set.

Code this model does not contain enters as parameters:

- `validator.isUUID`, `sanitize-html`, `JSON.parse`, and the event validators
  and sanitizer;
- the translators' `canTranslate` tests and the GitLab translator's
  `translatePush`;
- the ids `uuid()` draws, as a supply `ids: nat -> string`;
- `req.href`;
- the store's replies.

Documents built by the `hypermediaResponse` module are kept as the call that
builds them (`Http.Hypermedia`).

Where the code and the documented design disagree, the model follows the
code. The exceptions are the defects listed under "## Findings": each is
modelled as written, beside a corrected form, and the routes use the
corrected form so that their other properties can be stated. Every caller invokes `translatePush(body, instanceId, digestId, inboxId)`
on a function declared `(pushEvent, digestId)`. So the `metadata.digestId` of
every commit event is the instance id, not the digest id. The model keeps this
(`CommitsPost.CommitEventsCarryInstanceId`).

## Model

| member | source | states |
|---|---|---|
| `GitHubTranslator.TranslatePush` | src/app/api/translators/githubTranslator.js:12-52 | succeeds exactly when `ref` is a string, `repository` is not null and every commit has a committer; then one event per commit, in order, the i-th with id `ids(i)`, type `GitHubCommitReceived`, branch = last path segment of `ref`, the repository's id and name, the commit's sha, author, committer, message, url, the raw commit, and `metadata.digestId` = the second argument; on failure the error wraps the cause with an empty message |
| `GitHubTranslator.TranslatePushAsWritten` | src/app/api/translators/githubTranslator.js:47-50 | fails exactly when the translation throws, and then always with a ReferenceError for `GitHubCommitMalformedError` |
| `GitHubTranslator.MapCommits` | src/app/api/translators/githubTranslator.js:20-45 | the map succeeds iff every commit is well formed; then it has one event per commit with consecutive fresh ids; otherwise it raises the fault of the first malformed commit |
| `GitHubTranslator.EventIdsDistinct` | src/app/api/translators/githubTranslator.js:37-38 | with a fresh-id supply, the events of one push have pairwise distinct ids |
| `GitHubTranslator.NoCommitsNoEvents` | src/app/api/translators/githubTranslator.js:20-46 | a translatable push without commits yields the empty batch |
| `GitHubTranslator.EventsShareContext` | src/app/api/translators/githubTranslator.js:14-43 | all events of one push share repository, branch and `metadata.digestId` |
| `GitHubTranslator.MalformedCommitFailsAll` | src/app/api/translators/githubTranslator.js:20-50 | one malformed commit anywhere fails the whole push: no partial batch |
| `GitHubTranslator.CorrectedErrorKeepsCause` | src/app/api/translators/githubTranslator.js:5-10 | the corrected error names the exception that stopped translation: `split` for a missing ref, `id` for a missing repository, `name` for a missing committer |
| `GitHubTranslator.AsWrittenLosesCause` | src/app/api/translators/githubTranslator.js:49 | as written, a payload without `ref` and one whose commit lacks a committer fail with the same ReferenceError |
| `GitHubTranslator.CorrectionChangesOnlyTheError` | src/app/api/translators/githubTranslator.js:47-50 | the written and the corrected `translatePush` succeed on the same payloads with the same events; on failure the written one raises the ReferenceError and the corrected one wraps the translation's exception |
| `GitHubTranslator.OneCommitOnMain` | src/app/api/translators/githubTranslator.js:14-36 | a one-commit push on `refs/heads/main` yields one event on branch `main` with the commit's sha, message and repository |
| `TranslatorFactory.Create` | src/app/api/translators/translatorFactory.js:18-26 | GitHub iff GitHub's test accepts; GitLab iff only GitLab's test accepts; none iff neither does |
| `TranslatorFactory.CreateIsPriorityScan` | src/app/api/translators/translatorFactory.js:19-25 | selection equals the first accepting entry of the priority list [GitHub, GitLab] |
| `TranslatorFactory.CreateDependsOnlyOnTests` | src/app/api/translators/translatorFactory.js:18 | requests the two tests cannot tell apart get the same translator |
| `TranslatorFactory.CreateWith` | src/app/api/translators/translatorFactory.js:18-26 | throws a TypeError iff the GitHub translator lacks `canTranslate`; otherwise it answers what `Create` chooses |
| `TranslatorFactory.CreateAsWritten` | src/app/api/translators/translatorFactory.js:19 | `create` against the GitHub translator module as written, which has no `canTranslate`: every call throws the TypeError `canTranslate is not a function` |
| `TranslatorFactory.CreateAsWrittenAlwaysThrows` | src/app/api/translators/translatorFactory.js:19 | as written, every call throws `canTranslate is not a function`, whatever the request; with any test present it would not |
| `DigestsController.CheckDescription` | src/app/api/digestsController.js:39-67 | the checks run in order and the first failure wins: undefined, null, non-string (throws on `trim`), blank after trim, changed by sanitising, more than 140 UTF-16 units (the reason carries the exact length); accepted iff it passes all, and then unchanged |
| `DigestsController.TooLongMessageCitesLength` | src/app/api/digestsController.js:64-66 | the length message is the fixed prefix, the decimal digits of the length, and the fixed suffix, and the digits read back as the length |
| `DigestsController.TooLongMessagesDistinct` | src/app/api/digestsController.js:64-66 | two refused lengths give the same message only if they are equal |
| `DigestsController.ExactlyMaxLengthAccepted` | src/app/api/digestsController.js:64 | the bound is inclusive: a clean 140-character description is accepted |
| `DigestsController.AstralCharactersCountTwice` | src/app/api/digestsController.js:64-65 | 71 characters outside the Basic Multilingual Plane count as 142 and are refused |
| `DigestsController.PostDigests` | src/app/api/digestsController.js:28-93 | 415 unless the content type is JSON; a null or missing body throws reading `description`; a non-string description throws on `trim`, with no append; a refused description gets 400 with its reason's message and no append; an accepted one appends exactly one `DigestAdded` to `digests`; 201 with the created document iff the append succeeds; no response if it fails |
| `DigestsController.PostDigestsRecordsOneDigest` | src/app/api/digestsController.js:69-76 | once the store answers, `digests` has gained exactly the one `DigestAdded` iff the description was accepted and the append succeeded; no other stream changes; a request that appends nothing leaves the log as it was |
| `DigestsController.GetDigest` | src/app/api/digestsController.js:95-121 | a non-UUID gets 400 before any read; otherwise it reads partition `digest-<uuid>`: 500 with the fixed `{error}` message on a read error, 404 naming the id on no state, an unparsable or null state raises its exception, and 200 iff the state parses to a non-null value, with the `digestGET` document of the state's `digestId` and the state; never appends |
| `DigestsController.InboxEntryFields` | src/app/api/digestsController.js:154-170 | an inbox-list entry drops `digestId`, keeps every other field of the stored inbox, and carries the inbox links unless the inbox has its own `_links` |
| `DigestsController.InboxList` | src/app/api/digestsController.js:131-177 | `count` equals the number of keys of `state.inboxes` and of embedded entries, one per key in key order; throws iff the state or an inbox is null |
| `DigestsController.GetDigestInboxes` | src/app/api/digestsController.js:123-202 | reads `inboxes-for-digest`/`digestInbox-<uuid>`; 400 on invalid id or no state (not 404); 500 on a read error; an unparsable state, or one `InboxList` cannot render (a null state or inbox), raises that exception; 200 iff the list renders, and then the body is exactly `InboxList` of the parsed state |
| `CommitsPost.PostCommits` | src/app/api/inboxesController.js:86-186 | 415, then 400 for a non-UUID inbox id with no read; otherwise it reads partition `inbox-<id>`, and a failed read or a status other than 200 gives 500 with the error; an unparsable or null inbox state is rethrown; then, with no `x-github-event` header, 400 `{errors: …}`; with `push`, a payload that does not translate is rethrown with no append, and otherwise exactly the translated batch is appended to `inboxCommits-<id>`, with 201 and the `query-digest` location iff the append succeeds, 500 with the error otherwise; with `ping`, 200 "Pong." and no append; with any other value, 400 naming it; 200 is answered exactly for `ping` |
| `CommitsPost.InboxDigestId` | src/app/api/inboxesController.js:111-122 | the inbox's digest id is read iff its state parses to a non-null value; a failure is rethrown |
| `CommitsPost.PushAppendsOneEventPerCommit` | src/app/api/inboxesController.js:132-166 | a push with N commits appends exactly N events, the i-th with id `ids(i)` |
| `CommitsPost.CommitEventsCarryInstanceId` | src/app/api/inboxesController.js:136 | every appended commit event carries the instance id as `metadata.digestId` |
| `CommitsPost.CommitEventsMissTheDigest` | src/app/api/inboxesController.js:114-136 | when the inbox's digest id differs from the instance id, no appended event refers to the digest |
| `CommitsPost.PostCommitsTouchesOnlyItsInbox` | src/app/api/inboxesController.js:140-143 | a delivery changes no stream other than `inboxCommits-<inboxId>` |
| `InboxesRouter.PostCommitsAsWritten` | src/app/api/inboxes/inboxesController.js:15-36 | 415 and then 400 as in the legacy route; any other request throws a ReferenceError for `getPartitionState` before reading; never reads, never appends |
| `InboxesRouter.RouterDivergesAtTheStore` | src/app/api/inboxes/inboxesController.js:15-36 | the router's commits route and the intended handler give the same outcome on every request refused before the store; on every other request the handler reads `inbox-<id>` and the router throws |
| `InboxesRouter.RouterCommitsNeverAppend` | src/app/api/inboxes/inboxesController.js:36 | no delivery through the router changes the store, whatever the store answers |
| `InboxesRouter.RouterLosesEveryPush` | src/app/api/inboxes/inboxesController.js:36 | a translatable push to a readable inbox is appended by the intended handler and lost by the router: its handler itself answers nothing, and the ReferenceError reaches the error handler |
| `InboxesController.GetPartitionStateNamesReadModels` | src/app/api/inboxesController.js:213-220 | `getPartitionState('digest'/'inbox', id)` reads the digest/inbox read model of that id; inbox keys determine the id; digest and inbox keys never collide |
| `InboxesController.Admit` | src/app/api/inboxesController.js:17-41 | 415 first; sanitizer errors are thrown; writing the path's digest id into a null sanitized body throws; validator errors on the assigned body are thrown as one error; admitted iff all pass, with `digestId` = the path's |
| `InboxesController.CreateInbox` | src/app/api/inboxesController.js:16-84 | reads the digest only after admission; 500 with the fixed `{error}` message on a read error, 404 naming the body's digest id on no state, neither appending; otherwise appends exactly one `InboxAdded` to `inboxes-<instanceId>`; 201 with the created inbox iff the append succeeds, 500 with the error otherwise |
| `InboxesController.CreatedInboxBelongsToPathDigest` | src/app/api/inboxesController.js:37-54 | the digest read and the owner recorded in `InboxAdded` are the digest named in the path |
| `InboxesController.CommitsLookupIsPartitionState` | src/app/api/inboxesController.js:107 | the commits route's inbox read is `getPartitionState('inbox', inboxId)` |
| `InboxesController.GetInbox` | src/app/api/inboxesController.js:188-211 | 400 on a non-UUID; otherwise it reads `inbox-<id>`: 500 with the fixed `{error}` message, 404 naming the id, and 200 iff the state parses, with the inbox document of the state; never appends |
| `CommitsCreate.CreateCommits` | src/app/api/inboxes/commitsCreate.js:7-45 | an invalid inbox id is rejected before anything else; with no translator it neither appends nor answers; a translation failure propagates as that exception with no append; otherwise it appends exactly the chosen translator's batch to `inboxCommits-<inboxId>`; 201 with HAL iff the append succeeds, no answer otherwise |
| `CommitsCreate.Translated` | src/app/api/inboxes/commitsCreate.js:17 | the GitLab translator receives the body, instance id, digest id and inbox id; the GitHub one succeeds iff the payload is translatable, and then every event carries the instance id as `metadata.digestId` |
| `CommitsCreate.GitHubBatchMatchesLegacyPush` | src/app/api/inboxes/commitsCreate.js:14-22 | a GitHub delivery appends the same batch to the same stream as the legacy push branch, one event per commit, each carrying the instance id |
| `CommitsCreate.CreateCommitsTouchesOnlyItsInbox` | src/app/api/inboxes/commitsCreate.js:19-24 | the handler changes no stream other than its inbox's |
| `InstancesController.Authorize` | src/app/api/instancesController.js:34-40 | authorised iff a key is configured and the query's `apiKey` is exactly that string |
| `InstancesController.UnconfiguredKeyRefusesAll` | src/app/config.js:17 | with the default empty configured key every request is refused |
| `InstancesController.CreateHypermediaResponse` | src/app/api/instancesController.js:12-32 | the document echoes the instance id and key; `self` is `href("/api/instances/<id>")`, `digests` is `href("/api/<id>/digests")`, and `digest-create` has the same href with method POST and a title naming the instance |
| `InstancesController.PostInstance` | src/app/api/instancesController.js:43-85 | 401 before 415 before validation; validator errors are thrown as one error, and a null body throws reading `instanceId`, neither appending; otherwise appends exactly one `InstanceAdded` to `instances`; 201 with the created id and key and a Location equal to the document's self link iff the append succeeds; the store's error goes to the handler otherwise |
| `InstancesController.GetInstance` | src/app/api/instancesController.js:87-109 | a non-UUID is rejected before any read; otherwise it reads `instance-<id>`: a read error goes to the handler; no state or store status 404 gives a 404 error; 200 iff the state parses to a non-null value |
| `InstancesController.GetReturnsPostedDocument` | src/app/api/instancesController.js:74-106 | reading back the state of a created instance answers the same document as its creation |
| `DigestController.PostDigest` | src/app/api/digestController.js:26-52 | always appends one `DigestAdded` to `digests` and answers 201 with no regard to the store's reply; the link is built from an undefined digest id |
| `DigestController.LegacyPostIgnoresStore` | src/app/api/digestController.js:38-51 | for any two store replies the legacy outcome is the same, always a 201, where the newer route withholds its 201 when the append fails |
| `DigestController.LegacyPostAppendsOneDigest` | src/app/api/digestController.js:36-38 | an accepted legacy POST extends `digests` by exactly one event and no other stream |
| `DigestController.LegacyLinkMissesCreatedDigest` | src/app/api/digestController.js:45 | the legacy answer never names the digest it created |
| `DigestController.GetDigest` | src/app/api/digestController.js:54-60 | 200 iff the id is a UUID, with an empty body; 400 otherwise; the store is never asked |
| `Names.StreamNameInjective` | src/app/api/inboxesController.js:56-59 | distinct streams (`digests`, `instances`, `inboxes-<id>`, `inboxCommits-<id>`) have distinct names |
| `Names.PartitionNameInjective` | src/app/api/digestsController.js:99-102 | distinct read-model partitions have distinct keys |
| `Names.PartitionKeyInjective` | src/app/api/inboxesController.js:216 | for a fixed projection name the partition key determines the id |
| `Names.PartitionKeyNeedsFixedName` | src/app/api/inboxesController.js:213-216 | without a fixed name the key is ambiguous: `a-b`/`c` and `a`/`b-c` collide |
| `Text.NatToStringRoundTrip` | src/app/api/digestsController.js:65 | the decimal rendering of a length reads back as that length |
| `Http.ParseState` | src/app/api/inboxesController.js:114 | `JSON.parse` of the store's body: an absent or empty body throws; otherwise it succeeds exactly when the parser accepts the text, with the parser's value |
| `Text.JsonContentTypeCharacterised` | src/app/api/digestsController.js:31 | a content type passes iff it is `application/json` up to letter case, character by character |
| `Text.TrimEmptyIffBlank` | src/app/api/digestsController.js:51 | `trim()` is empty iff every character is white space |
| `Text.Utf16Length` | src/app/api/digestsController.js:64 | `length` counts UTF-16 units: between one and two per character, one each when all are in the Basic Multilingual Plane |
| `Text.LastSegment` | src/app/api/translators/githubTranslator.js:14 | `split('/').pop()` is the suffix after the last `/`, the whole string if there is none |
| `Text.LastSegmentOfBranchRef` | src/app/api/translators/githubTranslator.js:14 | `refs/heads/main` gives `main` |
| `Json.Get` | src/app/api/translators/githubTranslator.js:16-17 | reading a property throws iff the value is null or undefined |
| `Json.Keys` | src/app/api/digestsController.js:132 | the own keys of an object: pairwise distinct, exactly the keys the object has, no more of them than fields |
| `Json.RepeatedKeyListedOnce` | src/app/api/digestsController.js:132-133 | `{"k": x, "k": y}` has the one entry `k` with value `y` |
| `Json.Elements` | src/app/api/translators/githubTranslator.js:20 | `_.map` visits an array's items, a string's characters, `v[0]` … `v[length - 1]` of an array-like object, and otherwise one value per own key, the value a read of that key gives; nothing for other values |
| `Json.Entries` | src/app/api/digestsController.js:132 | `_.keys` with `v[key]`: for an object, pairwise distinct keys, each one a key of the object, every key of the object listed, each paired with the value a read of it gives; array indices as decimal strings with their items; nothing otherwise |
| `Json.Put` | src/app/api/inboxesController.js:37 | assignment throws iff the target is null or undefined; on an object the key then reads the new value |
| `Json.ExtendLookup` | src/app/api/digestsController.js:167 | after `_.extend` a key the source has reads from the source, any other key from the target |
| `Json.OmitLookup` | src/app/api/digestsController.js:167 | `_.omit` removes exactly the key and keeps every other value |
| `Store.RecordStreams` | src/app/api/inboxesController.js:140-143 | a recorded batch extends its own stream by exactly its events, in order, and leaves every other stream unchanged |
| `Store.RecordExtends` | src/app/api/digestsController.js:76 | the log only grows, by at most one batch per outcome |

## Left out

- The Express plumbing (middleware order, `res.set` of content types, `console` logging) is left out. A thrown error is modelled as `Raised` without the status the error handler picks.
- The one-second `setTimeout` before 201 bodies are sent is left out: only the response's content is modelled, not its timing.
- The event store's HTTP protocol, retries and the projections themselves are left out: replies are parameters, and `InstancesController.GetReturnsPostedDocument` takes the projection's stored state as a hypothesis.
- `hypermediaResponse`, `commitsAddedFormatAsHal`, `csError`, `validateUUID`, the event factories and their validators, the inbox sanitizer, `sanitize-html`, `validator.isUUID` and `JSON.parse` are not part of this model. They are parameters or symbolic documents.
- The GitLab translator is not part of this model. The factory takes the translators' `canTranslate` answers as predicates, and `CommitsCreate.Translated` takes the GitLab `translatePush` as a function.
- The inbox router's create and get handlers (`inboxCreate`, `inboxGet`) are not part of this model. Its commits route is modelled as written by `InboxesRouter.PostCommitsAsWritten`; the behaviour it evidently intends is the legacy handler's, `CommitsPost.PostCommits`.
- `TranslatorFactory.Create`: the factory as the routes use it assumes the GitHub translator has a `canTranslate` test; as written it has none and every call throws (see "## Findings").
- `CommitsPost.PostCommits`: uses the corrected `translatePush`; a failed translation is rethrown as the wrapped error, where the written translator raises a ReferenceError. Successful translations are identical (`GitHubTranslator.CorrectionChangesOnlyTheError`).
- `CommitsCreate.CreateCommits`: a rejected `postToStream` has no handler in the route, and the model takes that as no answer (`Silent`). The server's handling of unhandled rejections and its domain middleware, which may turn it into an error response, are not part of this model.
- How the digest routes form their origin (`config.protocol || req.protocol`, `://` and the host) is left out: the origin is a parameter of each route and of the documents it builds.
- `CommitsCreate.CreateCommits`: uses the corrected factory and the corrected `translatePush`, for the same reason; as written, the factory throws before any translation.
- `Json.Elements`: `_.map` follows the array-like rule of underscore 1.8 and later (a numeric `length` from 0 to 2^53 - 1); earlier releases treat any numeric `length` as array-like.
- `Json.Entries`: `Object.keys` puts integer-like keys first, in ascending numeric order; the model keeps every key in first-occurrence order.
- JSON numbers are integers. Floating point, exponent forms and their string conversion are left out.
- Named properties on arrays and primitives are left out: `Json.Put` leaves such values unchanged, and `_.omit` of a non-object inbox gives no fields.
- `Text.JsonContentTypeCharacterised` characterises ASCII case folding. `toLowerCase` on non-ASCII letters that fold to ASCII (such as the Kelvin sign) is not modelled.
- JSON rendering of bodies and of the event batch (`JSON.stringify`) is left out: bodies stay structured values.
- `DigestController.PostDigest`: the event factory is not part of this model. That the event keeps its digest id under `data`, so the top-level read is `undefined`, is taken from how the newer controller reads the same event.

## Findings

| source | as written | input that shows it | evidently intended | confidence | as-written member | corrected member |
|---|---|---|---|---|---|---|
| src/app/api/inboxes/inboxesController.js:36 | the commits route calls `getPartitionState`, which the legacy controller defines inside its own `init` and this module defines nowhere, so every JSON request with a valid inbox id throws a ReferenceError: nothing is read, nothing is appended, and the handler itself answers nothing; the ReferenceError reaches the error handler | any request with `Content-Type: application/json` and a UUID inbox id | the legacy handler's behaviour, reading `inbox-<id>` through `getPartitionState('inbox', inboxId)` | high; not executed | `InboxesRouter.PostCommitsAsWritten` (shown by `InboxesRouter.RouterLosesEveryPush`) | `CommitsPost.PostCommits` (proved by `CommitsPost.PushAppendsOneEventPerCommit`) |
| src/app/api/translators/translatorFactory.js:19 | `create` calls `gitHubTranslator.canTranslate(request)`, but the GitHub translator module defines only `translatePush` and `GitHubCommitMalformedError`, so every call throws a TypeError | any request reaching `commitsCreate` with a valid inbox id | a `canTranslate` test on the GitHub translator, tried before the GitLab one | medium (the GitHub translator may have gained the test in a revision this model does not include); not executed | `TranslatorFactory.CreateAsWritten` (shown by `TranslatorFactory.CreateAsWrittenAlwaysThrows`) | `TranslatorFactory.Create` (proved by `TranslatorFactory.CreateIsPriorityScan`) |
| src/app/api/translators/githubTranslator.js:49 | the `catch` block throws `new GitHubCommitMalformedError(ex)`, but that name is bound nowhere in scope (only `githubTranslator.GitHubCommitMalformedError` is, at line 5), so every translation failure becomes a ReferenceError that drops the cause | a push payload `{}` (no `ref`), or one whose only commit has no `committer` | throw `{errorMessage: '', originalMessage: ex}` built by `githubTranslator.GitHubCommitMalformedError(ex)` | high; not executed | `GitHubTranslator.TranslatePushAsWritten` (shown by `GitHubTranslator.AsWrittenLosesCause`) | `GitHubTranslator.TranslatePush` (proved by `GitHubTranslator.CorrectedErrorKeepsCause`) |

=== FILE: commits_create.dfy ===
/** The newer commits handler (`inboxes/commitsCreate.js`): validate the
    inbox id, pick a translator with the factory, append the translated
    batch, answer 201 with HAL once the store confirms. */
module CommitsCreate {
  import opened Results
  import opened Json
  import opened Names
  import opened Events
  import opened Http
  import opened GitHubTranslator
  import opened TranslatorFactory
  import Store

  /** A translator's `translatePush(body, instanceId, digestId, inboxId)`. */
  type TranslateCall = (Value, string, Value, string) -> Result<seq<Event>, JsError>

  /** The batch the chosen translator produces from the handler's
      `translatePush(req.body, instanceId, digestId, inboxId)`. The GitHub
      translator reads only the first two arguments, the second as the
      digest id; the GitLab translator is not part of this model and is a
      parameter receiving all four. */
  function Translated(translator: Translator, body: Value, instanceId: string, digestId: Value, inboxId: string,
                      ids: IdSupply, gitLabTranslate: TranslateCall): (r: Result<seq<Event>, JsError>)
    ensures translator.GitLab? ==> r == gitLabTranslate(body, instanceId, digestId, inboxId)
    ensures translator.GitHub? ==> (r.Success? <==> Translatable(body))
    ensures translator.GitHub? && r.Success? ==> forall i :: 0 <= i < |r.value| ==>
      r.value[i].GitHubCommitReceived? && r.value[i].metadataDigestId == instanceId
  {
    match translator
    case GitHub =>
      var r := TranslatePush(body, instanceId, ids);
      assert r.Success? ==> forall i :: 0 <= i < |r.value| ==>
        r.value[i].GitHubCommitReceived? && r.value[i].metadataDigestId == instanceId by {
        if r.Success? {
          forall i | 0 <= i < |r.value|
            ensures r.value[i].GitHubCommitReceived? && r.value[i].metadataDigestId == instanceId
          {
            assert Renders(r.value[i], CommitsOf(body)[i], body, instanceId, ids(i));
          }
        }
      }
      r
    case GitLab => gitLabTranslate(body, instanceId, digestId, inboxId)
  }

  /** The handler. `instanceId` and `digestId` come from the instance and
      inbox middleware; `appendReply` is how `postToStream` settles. A
      rejected append has no handler, and a request no translator accepts
      is left unanswered. The factory and the GitHub translator are their
      corrected forms (`TranslatorFactory.Create`, `TranslatePush`). */
  function CreateCommits(request: Request, instanceId: string, digestId: Value, inboxId: string,
                         isUuid: string -> bool,
                         gitHubCanTranslate: Request -> bool, gitLabCanTranslate: Request -> bool,
                         ids: IdSupply, gitLabTranslate: TranslateCall,
                         appendReply: AppendReply): (r: Outcome)
    ensures r.lookup.None?
    ensures !isUuid(inboxId) ==> r == Outcome(None, None, Raised(InvalidIdentifier("inbox", inboxId)))
    ensures isUuid(inboxId) && Create(request, gitHubCanTranslate, gitLabCanTranslate).None? ==>
      r == Outcome(None, None, Silent)
    ensures r.append.Some? <==>
      isUuid(inboxId) && Create(request, gitHubCanTranslate, gitLabCanTranslate).Some? &&
      Translated(Create(request, gitHubCanTranslate, gitLabCanTranslate).value, request.body, instanceId, digestId, inboxId, ids, gitLabTranslate).Success?
    ensures (isUuid(inboxId) && Create(request, gitHubCanTranslate, gitLabCanTranslate).Some? &&
      Translated(Create(request, gitHubCanTranslate, gitLabCanTranslate).value, request.body, instanceId, digestId, inboxId, ids, gitLabTranslate).Failure?) ==>
      r == Outcome(None, None, Raised(Thrown(
        Translated(Create(request, gitHubCanTranslate, gitLabCanTranslate).value, request.body, instanceId, digestId, inboxId, ids, gitLabTranslate).error)))
    ensures r.append.Some? ==> r.append.value == Append(StreamName(InboxCommits(inboxId)),
      Translated(Create(request, gitHubCanTranslate, gitLabCanTranslate).value, request.body, instanceId, digestId, inboxId, ids, gitLabTranslate).value)
    ensures HasStatus(r, 201) <==> r.append.Some? && appendReply.Appended?
    ensures HasStatus(r, 201) ==> r.response == Sent(201, Built(CommitsAddedHal(instanceId, inboxId, digestId)), None)
    ensures r.append.Some? && appendReply.AppendFailed? ==> r.response.Silent?
  {
    if !isUuid(inboxId) then Outcome(None, None, Raised(InvalidIdentifier("inbox", inboxId)))
    else match Create(request, gitHubCanTranslate, gitLabCanTranslate)
      case None => Outcome(None, None, Silent)
      case Some(translator) =>
        match Translated(translator, request.body, instanceId, digestId, inboxId, ids, gitLabTranslate)
        case Failure(e) => Outcome(None, None, Raised(Thrown(e)))
        case Success(events) =>
          var append := Some(Append(StreamName(InboxCommits(inboxId)), events));
          if appendReply.Appended? then
            Outcome(None, append, Sent(201, Built(CommitsAddedHal(instanceId, inboxId, digestId)), None))
          else Outcome(None, append, Silent)
  }

  /** A GitHub delivery writes the same batch, to the same stream, as the
      legacy handler's push branch. */
  lemma GitHubBatchMatchesLegacyPush(request: Request, instanceId: string, digestId: Value, inboxId: string,
                                     isUuid: string -> bool,
                                     gitHubCanTranslate: Request -> bool, gitLabCanTranslate: Request -> bool,
                                     ids: IdSupply, gitLabTranslate: TranslateCall,
                                     appendReply: AppendReply)
    requires isUuid(inboxId) && gitHubCanTranslate(request)
    requires Translatable(request.body)
    ensures var r := CreateCommits(request, instanceId, digestId, inboxId, isUuid, gitHubCanTranslate,
                                   gitLabCanTranslate, ids, gitLabTranslate, appendReply);
      && r.append.Some?
      && r.append.value.stream == StreamName(InboxCommits(inboxId))
      && r.append.value.events == TranslatePush(request.body, instanceId, ids).value
      && |r.append.value.events| == |CommitsOf(request.body)|
      && forall i :: 0 <= i < |r.append.value.events| ==> r.append.value.events[i].metadataDigestId == instanceId
  {
    var events := TranslatePush(request.body, instanceId, ids).value;
    forall i | 0 <= i < |events|
      ensures events[i].metadataDigestId == instanceId
    {
      assert Renders(events[i], CommitsOf(request.body)[i], request.body, instanceId, ids(i));
    }
  }

  /** Whatever the outcome, the handler writes at most the one stream of
      its inbox. */
  lemma CreateCommitsTouchesOnlyItsInbox(log: Store.Log, request: Request, instanceId: string, digestId: Value,
                                         inboxId: string, isUuid: string -> bool,
                                         gitHubCanTranslate: Request -> bool, gitLabCanTranslate: Request -> bool,
                                         ids: IdSupply, gitLabTranslate: TranslateCall,
                                         appendReply: AppendReply, other: Stream)
    requires other != InboxCommits(inboxId)
    ensures var r := CreateCommits(request, instanceId, digestId, inboxId, isUuid, gitHubCanTranslate,
                                   gitLabCanTranslate, ids, gitLabTranslate, appendReply);
      Store.StreamEvents(Store.Record(log, r, appendReply), StreamName(other)) == Store.StreamEvents(log, StreamName(other))
  {
    var r := CreateCommits(request, instanceId, digestId, inboxId, isUuid, gitHubCanTranslate,
                           gitLabCanTranslate, ids, gitLabTranslate, appendReply);
    Store.RecordStreams(log, r, appendReply, StreamName(other));
    StreamNameInjective(InboxCommits(inboxId), other);
  }
}

=== FILE: commits_post.dfy ===
/** POST `/api/:instanceId/inboxes/:inboxId/commits`: a GitHub webhook
    delivery to an inbox, as the legacy inbox controller handles it. The
    newer inbox router carries the same handler text but cannot reach the
    store (see `InboxesRouter`); this function is the behaviour both
    intend. */
module CommitsPost {
  import opened Results
  import opened Json
  import opened Names
  import opened Events
  import opened Http
  import opened GitHubTranslator
  import Store

  const UnsupportedMediaType: string :=
    "When posting to an inbox, you must send a Content-Type: application/json header."

  const MissingEventHeader: string := "Unknown event type. Please include an x-github-event header."

  const RetryPrefix: string := "We had an internal problem. Please retry your request. Error: "

  const EventHeader: string := "x-github-event"

  function InvalidInboxId(inboxId: string): string {
    "The value " + inboxId + " is not recognized as a valid inbox identifier."
  }

  function UnknownEventType(eventType: string): string {
    "Unknown event type for x-github-event header : " + eventType
  }

  /** `!error && response.statusCode == 200`: the inbox read succeeded. */
  predicate InboxRead(reply: StoreReply) {
    reply.ReadDone? && reply.statusCode == 200
  }

  /** `{message: error}` for a failed read; `error` is null when the store
      answered with another status. */
  function ReadErrorBody(reply: StoreReply): Value {
    Obj([Field("message", if reply.ReadFailed? then Str(reply.error) else Null)])
  }

  /** The `try` block: `JSON.parse(response.body).digestId`, rethrowing
      whatever it raises. */
  function InboxDigestId(reply: StoreReply, parse: string -> Option<Value>): (r: Result<Value, JsError>)
    requires reply.ReadDone?
    ensures r.Success? <==> ParseState(reply, parse).Success? && !IsNullish(ParseState(reply, parse).value)
    ensures r.Success? ==> r.value == Prop(ParseState(reply, parse).value, "digestId")
  {
    match ParseState(reply, parse)
    case Failure(e) => Failure(e)
    case Success(inbox) => Get(inbox, "digestId")
  }

  /** The translated batch for a push delivery: the events, or the exception
      `translatePush` throws. The route passes the instance id where the
      translator expects the digest id. The translator is its corrected
      form, which succeeds with the same events as the written one
      (`CorrectionChangesOnlyTheError`) and differs only in the error. */
  function PushBatch(request: Request, instanceId: string, ids: IdSupply): Result<seq<Event>, JsError> {
    TranslatePush(request.body, instanceId, ids)
  }

  /** Whether the handler reaches the event-type dispatch: JSON content, a
      UUID inbox id, and a readable inbox whose digest id was read. */
  predicate ReachesDispatch(request: Request, inboxId: string, isUuid: string -> bool,
                            reply: StoreReply, parse: string -> Option<Value>) {
    && AcceptsJson(request.contentType)
    && isUuid(inboxId)
    && InboxRead(reply)
    && InboxDigestId(reply, parse).Success?
  }

  /** The `x-github-event` header of a request that has one. */
  predicate EventTypeIs(request: Request, eventType: string) {
    EventHeader in request.headers && request.headers[EventHeader] == eventType
  }

  /** Whether the handler reaches the push branch: the dispatch, with a
      `push` event header. */
  predicate ReachesPush(request: Request, inboxId: string, isUuid: string -> bool,
                        reply: StoreReply, parse: string -> Option<Value>) {
    ReachesDispatch(request, inboxId, isUuid, reply, parse) && EventTypeIs(request, "push")
  }

  /** The handler. `reply` answers the inbox lookup, `appendReply` the
      append of the translated batch; `ids` supplies the events' ids. */
  function PostCommits(request: Request, instanceId: string, inboxId: string, isUuid: string -> bool,
                       reply: StoreReply, parse: string -> Option<Value>, ids: IdSupply,
                       appendReply: AppendReply): (r: Outcome)
    ensures !AcceptsJson(request.contentType) ==> r == Immediate(415, PlainText(UnsupportedMediaType))
    ensures AcceptsJson(request.contentType) && !isUuid(inboxId) ==>
      r == Immediate(400, JsonBody(Message("message", InvalidInboxId(inboxId))))
    ensures r.lookup.Some? <==> AcceptsJson(request.contentType) && isUuid(inboxId)
    ensures r.lookup.Some? ==> r.lookup.value == LookupOf(InboxState(inboxId))
    ensures AcceptsJson(request.contentType) && isUuid(inboxId) && !InboxRead(reply) ==>
      r.append.None? && r.response == Sent(500, JsonBody(ReadErrorBody(reply)), None)
    ensures (AcceptsJson(request.contentType) && isUuid(inboxId) && InboxRead(reply) &&
      InboxDigestId(reply, parse).Failure?) ==>
      r.append.None? && r.response == Raised(Thrown(InboxDigestId(reply, parse).error))
    ensures r.append.Some? <==>
      ReachesPush(request, inboxId, isUuid, reply, parse) && PushBatch(request, instanceId, ids).Success?
    ensures ReachesPush(request, inboxId, isUuid, reply, parse) && PushBatch(request, instanceId, ids).Failure? ==>
      r.append.None? && r.response == Raised(Thrown(PushBatch(request, instanceId, ids).error))
    ensures r.append.Some? ==>
      r.append.value == Append(StreamName(InboxCommits(inboxId)), PushBatch(request, instanceId, ids).value)
    ensures HasStatus(r, 201) <==> r.append.Some? && appendReply.Appended?
    ensures HasStatus(r, 201) ==>
      r.response == Sent(201, Built(CommitsPosted(instanceId, inboxId, InboxDigestId(reply, parse).value)),
        Some(LinkOf(CommitsPosted(instanceId, inboxId, InboxDigestId(reply, parse).value), "query-digest")))
    ensures r.append.Some? && appendReply.AppendFailed? ==>
      r.response == Sent(500, JsonBody(Message("errors", RetryPrefix + appendReply.error)), None)
    ensures ReachesDispatch(request, inboxId, isUuid, reply, parse) && EventHeader !in request.headers ==>
      r.append.None? && r.response == Sent(400, JsonBody(Message("errors", MissingEventHeader)), None)
    ensures ReachesDispatch(request, inboxId, isUuid, reply, parse) && EventTypeIs(request, "ping") ==>
      r.append.None? && r.response == Sent(200, JsonBody(Message("message", "Pong.")), None)
    ensures (ReachesDispatch(request, inboxId, isUuid, reply, parse) && EventHeader in request.headers &&
      request.headers[EventHeader] != "push" && request.headers[EventHeader] != "ping") ==>
      (r.append.None? &&
       r.response == Sent(400, JsonBody(Message("message", UnknownEventType(request.headers[EventHeader]))), None))
    ensures HasStatus(r, 200) <==> ReachesDispatch(request, inboxId, isUuid, reply, parse) && EventTypeIs(request, "ping")
  {
    if !AcceptsJson(request.contentType) then Immediate(415, PlainText(UnsupportedMediaType))
    else if !isUuid(inboxId) then Immediate(400, JsonBody(Message("message", InvalidInboxId(inboxId))))
    else
      var lookup := Some(LookupOf(InboxState(inboxId)));
      if !InboxRead(reply) then Outcome(lookup, None, Sent(500, JsonBody(ReadErrorBody(reply)), None))
      else match InboxDigestId(reply, parse)
        case Failure(e) => Outcome(lookup, None, Raised(Thrown(e)))
        case Success(digestId) =>
          if EventHeader !in request.headers then
            Outcome(lookup, None, Sent(400, JsonBody(Message("errors", MissingEventHeader)), None))
          else if request.headers[EventHeader] == "push" then
            match PushBatch(request, instanceId, ids)
            case Failure(e) => Outcome(lookup, None, Raised(Thrown(e)))
            case Success(events) =>
              var append := Some(Append(StreamName(InboxCommits(inboxId)), events));
              if appendReply.AppendFailed? then
                Outcome(lookup, append, Sent(500, JsonBody(Message("errors", RetryPrefix + appendReply.error)), None))
              else
                var doc := CommitsPosted(instanceId, inboxId, digestId);
                Outcome(lookup, append, Sent(201, Built(doc), Some(LinkOf(doc, "query-digest"))))
          else if request.headers[EventHeader] == "ping" then
            Outcome(lookup, None, Sent(200, JsonBody(Message("message", "Pong.")), None))
          else
            Outcome(lookup, None, Sent(400, JsonBody(Message("message", UnknownEventType(request.headers[EventHeader]))), None))
  }

  // ---------------------------------------------------------------------------
  // Properties
  // ---------------------------------------------------------------------------

  /** A push with N commits appends exactly N events, one per commit, in
      order and with the i-th id of the supply. */
  lemma PushAppendsOneEventPerCommit(request: Request, instanceId: string, inboxId: string, isUuid: string -> bool,
                                     reply: StoreReply, parse: string -> Option<Value>, ids: IdSupply,
                                     appendReply: AppendReply)
    requires ReachesPush(request, inboxId, isUuid, reply, parse)
    requires Translatable(request.body)
    ensures var r := PostCommits(request, instanceId, inboxId, isUuid, reply, parse, ids, appendReply);
      && r.append.Some?
      && |r.append.value.events| == |CommitsOf(request.body)|
      && forall i :: 0 <= i < |r.append.value.events| ==> r.append.value.events[i].eventId == ids(i)
  {
    var r := PostCommits(request, instanceId, inboxId, isUuid, reply, parse, ids, appendReply);
    var events := r.append.value.events;
    forall i | 0 <= i < |events|
      ensures events[i].eventId == ids(i)
    {
      assert Renders(events[i], CommitsOf(request.body)[i], request.body, instanceId, ids(i));
    }
  }

  /** As the callers invoke `translatePush`, the `metadata.digestId` of
      every appended commit event is the instance id, not the digest id
      the inbox belongs to. */
  lemma CommitEventsCarryInstanceId(request: Request, instanceId: string, inboxId: string, isUuid: string -> bool,
                                    reply: StoreReply, parse: string -> Option<Value>, ids: IdSupply,
                                    appendReply: AppendReply)
    requires PostCommits(request, instanceId, inboxId, isUuid, reply, parse, ids, appendReply).append.Some?
    ensures var events := PostCommits(request, instanceId, inboxId, isUuid, reply, parse, ids, appendReply).append.value.events;
      forall i :: 0 <= i < |events| ==> events[i].GitHubCommitReceived? && events[i].metadataDigestId == instanceId
  {
    var r := PostCommits(request, instanceId, inboxId, isUuid, reply, parse, ids, appendReply);
    var events := r.append.value.events;
    forall i | 0 <= i < |events|
      ensures events[i].GitHubCommitReceived? && events[i].metadataDigestId == instanceId
    {
      assert Renders(events[i], CommitsOf(request.body)[i], request.body, instanceId, ids(i));
    }
  }

  /** Consequently, when the inbox's stored digest id is a string other than
      the instance id, no appended event refers to that digest. */
  lemma CommitEventsMissTheDigest(request: Request, instanceId: string, inboxId: string, isUuid: string -> bool,
                                  reply: StoreReply, parse: string -> Option<Value>, ids: IdSupply,
                                  appendReply: AppendReply, digestId: string)
    requires PostCommits(request, instanceId, inboxId, isUuid, reply, parse, ids, appendReply).append.Some?
    requires InboxDigestId(reply, parse) == Success(Str(digestId))
    requires digestId != instanceId
    ensures var events := PostCommits(request, instanceId, inboxId, isUuid, reply, parse, ids, appendReply).append.value.events;
      forall i :: 0 <= i < |events| ==> events[i].metadataDigestId != digestId
  {
    CommitEventsCarryInstanceId(request, instanceId, inboxId, isUuid, reply, parse, ids, appendReply);
  }

  /** A delivery changes the store only in stream `inboxCommits-<inboxId>`:
      every other stream, of any kind, keeps its events. */
  lemma PostCommitsTouchesOnlyItsInbox(log: Store.Log, request: Request, instanceId: string, inboxId: string,
                                       isUuid: string -> bool, reply: StoreReply, parse: string -> Option<Value>,
                                       ids: IdSupply, appendReply: AppendReply, other: Stream)
    requires other != InboxCommits(inboxId)
    ensures var r := PostCommits(request, instanceId, inboxId, isUuid, reply, parse, ids, appendReply);
      Store.StreamEvents(Store.Record(log, r, appendReply), StreamName(other)) == Store.StreamEvents(log, StreamName(other))
  {
    var r := PostCommits(request, instanceId, inboxId, isUuid, reply, parse, ids, appendReply);
    Store.RecordStreams(log, r, appendReply, StreamName(other));
    StreamNameInjective(InboxCommits(inboxId), other);
  }
}

=== FILE: digest_controller.dfy ===
/** The legacy single-digest controller: POST `/api/digest` answers 201 at
    once, without waiting for the store, and GET `/api/digest/:uuid` only
    checks the identifier. */
module DigestController {
  import opened Results
  import opened Json
  import opened Names
  import opened Events
  import opened Http
  import DigestsController
  import Store

  /** POST `/api/digest`. The append is issued and its reply ignored. The
      event object keeps its digest id under `data`, so the top-level
      `digestAddedEvent.digestId` handed to the link builder reads
      `undefined`. */
  function PostDigest(request: Request, origin: string, eventId: string, digestId: string,
                      appendReply: AppendReply): (r: Outcome)
    ensures r.lookup.None?
    ensures !IsNullish(request.body) ==> (r.append ==
      Some(Append(StreamName(Digests), [DigestAdded(eventId, digestId, Prop(request.body, "description"))])))
    ensures !IsNullish(request.body) ==>
      r.response == Sent(201, Built(DigestCreated(origin, Undefined)), Some(LinkOf(DigestCreated(origin, Undefined), "self")))
    ensures IsNullish(request.body) ==> r == Outcome(None, None, Raised(Thrown(CannotReadProperty("description"))))
  {
    match Get(request.body, "description")
    case Failure(e) => Outcome(None, None, Raised(Thrown(e)))
    case Success(description) =>
      var doc := DigestCreated(origin, Undefined);
      Outcome(None, Some(Append(StreamName(Digests), [DigestAdded(eventId, digestId, description)])),
        Sent(201, Built(doc), Some(LinkOf(doc, "self"))))
  }

  /** Unlike `POST /api/digests`, the legacy route does not depend on the
      store: it answers the same 201 whether the append succeeds or fails,
      and it accepts any description, even a missing one. */
  lemma LegacyPostIgnoresStore(request: Request, origin: string, eventId: string, digestId: string,
                               sanitize: string -> string, a: AppendReply, b: AppendReply)
    requires !IsNullish(request.body)
    ensures PostDigest(request, origin, eventId, digestId, a) == PostDigest(request, origin, eventId, digestId, b)
    ensures HasStatus(PostDigest(request, origin, eventId, digestId, a), 201)
    ensures AcceptsJson(request.contentType) && a.AppendFailed? ==>
      !HasStatus(DigestsController.PostDigests(request, sanitize, origin, eventId, digestId, a), 201)
  {
  }

  /** Each legacy POST adds exactly one `DigestAdded` event to `digests`,
      and nothing to any other stream, when the store accepts it. */
  lemma LegacyPostAppendsOneDigest(log: Store.Log, request: Request, origin: string, eventId: string,
                                   digestId: string, other: Stream)
    requires !IsNullish(request.body)
    requires other != Digests
    ensures var log' := Store.Record(log, PostDigest(request, origin, eventId, digestId, Appended), Appended);
      && Store.StreamEvents(log', StreamName(Digests)) ==
         Store.StreamEvents(log, StreamName(Digests)) + [DigestAdded(eventId, digestId, Prop(request.body, "description"))]
      && Store.StreamEvents(log', StreamName(other)) == Store.StreamEvents(log, StreamName(other))
  {
    var o := PostDigest(request, origin, eventId, digestId, Appended);
    Store.RecordStreams(log, o, Appended, StreamName(Digests));
    Store.RecordStreams(log, o, Appended, StreamName(other));
    StreamNameInjective(Digests, other);
  }

  /** The link the legacy POST answers never names the digest it created. */
  lemma LegacyLinkMissesCreatedDigest(request: Request, origin: string, eventId: string, digestId: string,
                                      appendReply: AppendReply)
    requires !IsNullish(request.body)
    ensures var r := PostDigest(request, origin, eventId, digestId, appendReply);
      r.response.body.Built? && r.response.body.doc.newDigestId != Str(digestId)
  {
  }

  /** GET `/api/digest/:uuid`: 400 for a value that is not a UUID, otherwise
      an empty 200; the store is never asked. */
  function GetDigest(uuid: string, isUuid: string -> bool): (r: Outcome)
    ensures r.lookup.None? && r.append.None?
    ensures HasStatus(r, 200) <==> isUuid(uuid)
    ensures !isUuid(uuid) ==> r.response == Sent(400, PlainText(DigestsController.InvalidDigestId(uuid)), None)
    ensures isUuid(uuid) ==> r.response.body == NoBody
  {
    if !isUuid(uuid) then Immediate(400, PlainText(DigestsController.InvalidDigestId(uuid)))
    else Immediate(200, NoBody)
  }
}

=== FILE: digests_controller.dfy ===
/** The digest routes: POST `/api/digests` with its ordered description
    checks, GET `/api/digests/:uuid`, and GET `/api/digests/:uuid/inboxes`
    with the inbox-list hypermedia. */
module DigestsController {
  import opened Results
  import opened Json
  import Text
  import opened Names
  import opened Events
  import opened Hal
  import opened Http
  import Store

  // ---------------------------------------------------------------------------
  // POST /api/digests
  // ---------------------------------------------------------------------------

  const MaxDescriptionLength: nat := 140

  const UnsupportedMediaType: string :=
    "When creating a digest, you must send a Content-Type: application/json header."

  /** Why a description was refused, in the order the checks run. */
  datatype Problem = Missing | NullDescription | Blank | Markup | TooLong(length: nat)

  const TooLongPrefix: string :=
    "A digest description cannot contain more than 140 characters. The description you submitted contains "
  const TooLongSuffix: string := " characters."

  function ProblemMessage(p: Problem): string {
    match p
    case Missing => "A digest must contain a description."
    case NullDescription => "A digest description must not be null."
    case Blank => "A digest description must contain a value."
    case Markup => "A digest description cannot contain script tags or HTML."
    case TooLong(n) => TooLongPrefix + Text.NatToString(n) + TooLongSuffix
  }

  datatype Verdict = Accepted(description: string) | Rejected(problem: Problem) | Throws(error: JsError)

  /** The description checks, first failure wins: undefined, null, blank
      after trim, changed by sanitising with no tags allowed, longer than 140
      UTF-16 units. A description that is not a string has no `trim` method. */
  function CheckDescription(description: Value, sanitize: string -> string): (v: Verdict)
    ensures v == Rejected(Missing) <==> description.Undefined?
    ensures v == Rejected(NullDescription) <==> description.Null?
    ensures v.Throws? <==> !(description.Undefined? || description.Null? || description.Str?)
    ensures v == Rejected(Blank) <==> description.Str? && Text.IsBlank(description.s)
    ensures v == Rejected(Markup) <==>
      description.Str? && !Text.IsBlank(description.s) && sanitize(description.s) != description.s
    ensures (v.Rejected? && v.problem.TooLong?) <==>
      description.Str? && !Text.IsBlank(description.s) && sanitize(description.s) == description.s &&
      Text.Utf16Length(description.s) > MaxDescriptionLength
    ensures v.Rejected? && v.problem.TooLong? ==> v.problem.length == Text.Utf16Length(description.s)
    ensures v.Accepted? <==>
      description.Str? && !Text.IsBlank(description.s) && sanitize(description.s) == description.s &&
      Text.Utf16Length(description.s) <= MaxDescriptionLength
    ensures v.Accepted? ==> v.description == description.s
  {
    match description
    case Undefined => Rejected(Missing)
    case Null => Rejected(NullDescription)
    case Str(s) =>
      Text.TrimEmptyIffBlank(s);
      if |Text.Trim(s)| == 0 then Rejected(Blank)
      else
        var sanitized := sanitize(s);
        if s != sanitized then Rejected(Markup)
        else if Text.Utf16Length(sanitized) > MaxDescriptionLength then Rejected(TooLong(Text.Utf16Length(sanitized)))
        else Accepted(sanitized)
    case _ => Throws(NotAFunction("trim"))
  }

  /** The length message names the exact length: the digits between its
      fixed prefix and suffix read back as the length. */
  lemma TooLongMessageCitesLength(n: nat)
    ensures var m := ProblemMessage(TooLong(n));
      var digits := m[|TooLongPrefix|..|m| - |TooLongSuffix|];
      && m[..|TooLongPrefix|] == TooLongPrefix
      && m[|m| - |TooLongSuffix|..] == TooLongSuffix
      && (forall i :: 0 <= i < |digits| ==> Text.IsDigit(digits[i]))
      && Text.DigitsValue(digits) == n
  {
    var m := ProblemMessage(TooLong(n));
    assert m[|TooLongPrefix|..|m| - |TooLongSuffix|] == Text.NatToString(n);
    Text.NatToStringRoundTrip(n);
  }

  /** Distinct lengths give distinct messages: the message alone tells
      which length was refused. */
  lemma TooLongMessagesDistinct(m: nat, n: nat)
    ensures ProblemMessage(TooLong(m)) == ProblemMessage(TooLong(n)) ==> m == n
  {
    var a, b := ProblemMessage(TooLong(m)), ProblemMessage(TooLong(n));
    if a == b {
      assert a[|TooLongPrefix|..|a| - |TooLongSuffix|] == Text.NatToString(m);
      assert b[|TooLongPrefix|..|b| - |TooLongSuffix|] == Text.NatToString(n);
      Text.NatToStringInjective(m, n);
    }
  }

  /** The bound is inclusive: a clean description of exactly 140 characters
      of the Basic Multilingual Plane is accepted. */
  lemma ExactlyMaxLengthAccepted(s: string, sanitize: string -> string)
    requires |s| == MaxDescriptionLength
    requires forall i :: 0 <= i < |s| ==> s[i] as int <= 0xFFFF
    requires !Text.IsBlank(s) && sanitize(s) == s
    ensures CheckDescription(Str(s), sanitize) == Accepted(s)
  {
  }

  /** Characters outside the Basic Multilingual Plane count twice, as in
      JavaScript: 71 of them exceed the bound. */
  lemma AstralCharactersCountTwice(s: string, sanitize: string -> string)
    requires |s| == 71
    requires forall i :: 0 <= i < |s| ==> s[i] as int > 0xFFFF
    requires sanitize(s) == s
    ensures CheckDescription(Str(s), sanitize) == Rejected(TooLong(142))
  {
    assert !Text.IsJsWhitespace(s[0]);
    Utf16LengthAllAstral(s);
  }

  lemma {:induction false} Utf16LengthAllAstral(s: string)
    requires forall i :: 0 <= i < |s| ==> s[i] as int > 0xFFFF
    ensures Text.Utf16Length(s) == 2 * |s|
  {
    if |s| > 0 {
      Utf16LengthAllAstral(s[..|s| - 1]);
    }
  }

  /** POST `/api/digests`. On an accepted description exactly one
      `DigestAdded` event goes to stream `digests`; the 201 is sent only
      when the store accepts it, and nothing is sent when it fails. The new
      event's ids are parameters. */
  function PostDigests(request: Request, sanitize: string -> string, origin: string,
                       eventId: string, digestId: string, reply: AppendReply): (r: Outcome)
    ensures !AcceptsJson(request.contentType) ==> r == Immediate(415, PlainText(UnsupportedMediaType))
    ensures r.lookup.None?
    ensures r.append.Some? <==>
      AcceptsJson(request.contentType) && !IsNullish(request.body) &&
      CheckDescription(Prop(request.body, "description"), sanitize).Accepted?
    ensures r.append.Some? ==> r.append.value == Append(StreamName(Digests),
      [DigestAdded(eventId, digestId, Prop(request.body, "description"))])
    ensures (AcceptsJson(request.contentType) && !IsNullish(request.body) &&
      CheckDescription(Prop(request.body, "description"), sanitize).Rejected?) ==>
      r == Immediate(400, PlainText(ProblemMessage(CheckDescription(Prop(request.body, "description"), sanitize).problem)))
    ensures HasStatus(r, 201) <==> r.append.Some? && reply.Appended?
    ensures HasStatus(r, 201) ==>
      r.response == Sent(201, Built(DigestCreated(origin, Str(digestId))), Some(LinkOf(DigestCreated(origin, Str(digestId)), "self")))
    ensures r.append.Some? && reply.AppendFailed? ==> r.response.Silent?
    ensures AcceptsJson(request.contentType) && IsNullish(request.body) ==>
      r == Outcome(None, None, Raised(Thrown(CannotReadProperty("description"))))
    ensures (AcceptsJson(request.contentType) && !IsNullish(request.body) &&
      CheckDescription(Prop(request.body, "description"), sanitize).Throws?) ==>
      r == Outcome(None, None, Raised(Thrown(CheckDescription(Prop(request.body, "description"), sanitize).error)))
  {
    if !AcceptsJson(request.contentType) then Immediate(415, PlainText(UnsupportedMediaType))
    else match Get(request.body, "description")
      case Failure(e) => Outcome(None, None, Raised(Thrown(e)))
      case Success(description) =>
        match CheckDescription(description, sanitize)
        case Throws(e) => Outcome(None, None, Raised(Thrown(e)))
        case Rejected(p) => Immediate(400, PlainText(ProblemMessage(p)))
        case Accepted(text) =>
          var append := Append(StreamName(Digests), [DigestAdded(eventId, digestId, Str(text))]);
          var doc := DigestCreated(origin, Str(digestId));
          var response := if reply.Appended? then Sent(201, Built(doc), Some(LinkOf(doc, "self"))) else Silent;
          Outcome(None, Some(append), response)
  }

  /** What a POST does to the store: an accepted description the store
      takes extends stream `digests` by its one event and no other stream;
      a refused request leaves the whole log as it was. */
  lemma PostDigestsRecordsOneDigest(log: Store.Log, request: Request, sanitize: string -> string, origin: string,
                                    eventId: string, digestId: string, reply: AppendReply, other: Stream)
    requires other != Digests
    ensures var r := PostDigests(request, sanitize, origin, eventId, digestId, reply);
      var log' := Store.Record(log, r, reply);
      && Store.StreamEvents(log', StreamName(Digests)) == Store.StreamEvents(log, StreamName(Digests)) +
           (if r.append.Some? && reply.Appended?
            then [DigestAdded(eventId, digestId, Prop(request.body, "description"))] else [])
      && Store.StreamEvents(log', StreamName(other)) == Store.StreamEvents(log, StreamName(other))
      && (!HasStatus(r, 201) ==> log' == log || reply.AppendFailed?)
      && (r.append.None? ==> log' == log)
  {
    var r := PostDigests(request, sanitize, origin, eventId, digestId, reply);
    Store.RecordStreams(log, r, reply, StreamName(Digests));
    Store.RecordStreams(log, r, reply, StreamName(other));
    StreamNameInjective(Digests, other);
    if r.append.None? {
      Store.NoAppendNoChange(log, r, reply);
    }
  }

  // ---------------------------------------------------------------------------
  // GET /api/digests/:uuid
  // ---------------------------------------------------------------------------

  function InvalidDigestId(uuid: string): string {
    "The value \"" + uuid + "\" is not recognized as a valid digest identifier."
  }

  const InternalError: string := "There was an internal error when trying to process your request"

  /** GET `/api/digests/:uuid`: a non-UUID is refused before the store is
      asked; otherwise partition `digest-<uuid>` decides between 500, 404
      and 200. Nothing is ever appended. */
  function GetDigest(uuid: string, isUuid: string -> bool, reply: StoreReply,
                     parse: string -> Option<Value>, origin: string): (r: Outcome)
    ensures r.append.None?
    ensures !isUuid(uuid) ==> r == Immediate(400, PlainText(InvalidDigestId(uuid)))
    ensures isUuid(uuid) ==> r.lookup == Some(LookupOf(DigestState(uuid)))
    ensures isUuid(uuid) && reply.ReadFailed? ==> r.response == Sent(500, JsonBody(Message("error", InternalError)), None)
    ensures isUuid(uuid) && reply.ReadDone? && !HasState(reply) ==>
      r.response == Sent(404, JsonBody(Message("error", "Could not find a digest with id " + uuid)), None)
    ensures HasStatus(r, 200) <==>
      isUuid(uuid) && HasState(reply) && ParseState(reply, parse).Success? && !IsNullish(ParseState(reply, parse).value)
    ensures HasStatus(r, 200) ==>
      r.response.body == Built(DigestFound(origin, Prop(ParseState(reply, parse).value, "digestId"), ParseState(reply, parse).value))
    ensures isUuid(uuid) && HasState(reply) && ParseState(reply, parse).Failure? ==>
      r.response == Raised(Thrown(ParseState(reply, parse).error))
    ensures (isUuid(uuid) && HasState(reply) && ParseState(reply, parse).Success? &&
      IsNullish(ParseState(reply, parse).value)) ==>
      r.response == Raised(Thrown(CannotReadProperty("digestId")))
  {
    if !isUuid(uuid) then Immediate(400, PlainText(InvalidDigestId(uuid)))
    else
      var lookup := Some(LookupOf(DigestState(uuid)));
      if reply.ReadFailed? then Outcome(lookup, None, Sent(500, JsonBody(Message("error", InternalError)), None))
      else if !HasState(reply) then
        Outcome(lookup, None, Sent(404, JsonBody(Message("error", "Could not find a digest with id " + uuid)), None))
      else match ParseState(reply, parse)
        case Failure(e) => Outcome(lookup, None, Raised(Thrown(e)))
        case Success(data) =>
          match Get(data, "digestId")
          case Failure(e) => Outcome(lookup, None, Raised(Thrown(e)))
          case Success(id) => Outcome(lookup, None, Sent(200, Built(DigestFound(origin, id, data)), None))
  }

  // ---------------------------------------------------------------------------
  // GET /api/digests/:uuid/inboxes
  // ---------------------------------------------------------------------------

  /** The `_links` of one inbox in the list. */
  function InboxLinks(origin: string, inboxId: string): Value {
    Obj([
      Field("self", Obj([Field("href", Str(origin + "/api/inboxes/" + inboxId))])),
      Field("inbox-commits", Obj([
        Field("href", Str(origin + "/api/inboxes/" + inboxId + "/commits")),
        Field("method", Str("POST"))]))])
  }

  /** `createInboxHyperMediaResult`: the links, extended with every field of
      the inbox except `digestId`. */
  function InboxEntry(origin: string, inbox: Value): Value
    requires !IsNullish(inbox)
  {
    var links := InboxLinks(origin, ToJsString(Prop(inbox, "inboxId")));
    var kept := if inbox.Obj? then Omit(inbox.fields, "digestId") else [];
    Obj(Extend([Field("_links", links)], kept))
  }

  /** An entry of the list drops `digestId`, keeps every other field of the
      stored inbox, and carries the links unless the inbox has its own
      `_links` field, which `_.extend` lets win. */
  lemma InboxEntryFields(origin: string, inbox: Value, k: string)
    requires inbox.Obj?
    ensures k == "digestId" ==> Prop(InboxEntry(origin, inbox), k) == Undefined
    ensures k != "digestId" && k != "_links" ==> Prop(InboxEntry(origin, inbox), k) == Prop(inbox, k)
    ensures k == "_links" ==> (Prop(InboxEntry(origin, inbox), k) ==
      if HasKey(inbox.fields, "_links") then Prop(inbox, "_links")
      else InboxLinks(origin, ToJsString(Prop(inbox, "inboxId"))))
  {
    var links := InboxLinks(origin, ToJsString(Prop(inbox, "inboxId")));
    var kept := Omit(inbox.fields, "digestId");
    ExtendLookup([Field("_links", links)], kept, k);
    OmitLookup(inbox.fields, "digestId", k);
    OmitLookup(inbox.fields, "digestId", "_links");
    if !HasKey(inbox.fields, k) {
      LookupAbsent(inbox.fields, k);
    }
  }

  /** `createHyperMediaResponse(digestId, state)`: `count` is the number of
      keys of `state.inboxes` and `_embedded.inboxes` holds one entry per
      key, in key order. Reading `inboxes` of a null state, or `inboxId` of
      a null inbox, throws. */
  function InboxList(origin: string, digestId: string, state: Value): (r: Result<InboxListDoc, JsError>)
    ensures r.Failure? <==>
      IsNullish(state) || exists i :: 0 <= i < |Entries(Prop(state, "inboxes"))| && IsNullish(Entries(Prop(state, "inboxes"))[i].value)
    ensures r.Success? ==> r.value.count == |r.value.inboxes| == |Entries(Prop(state, "inboxes"))|
    ensures r.Success? ==> forall i :: 0 <= i < |r.value.inboxes| ==>
      r.value.inboxes[i] == InboxEntry(origin, Entries(Prop(state, "inboxes"))[i].value)
    ensures r.Success? ==> r.value.self.href == origin + "/api/digests/" + digestId + "/inboxes"
  {
    if IsNullish(state) then Failure(CannotReadProperty("inboxes"))
    else
      var entries := Entries(Prop(state, "inboxes"));
      if exists i :: 0 <= i < |entries| && IsNullish(entries[i].value) then Failure(CannotReadProperty("inboxId"))
      else
        var inboxes := seq(|entries|, i requires 0 <= i < |entries| => InboxEntry(origin, entries[i].value));
        Success(InboxListDoc(
          PlainLink(origin + "/api/digests/" + digestId + "/inboxes"),
          PlainLink(origin + "/api/digests/" + digestId),
          Link(origin + "/api/inboxes", Some("POST"),
            Some("Endpoint for creating an inbox for a repository on digest " + digestId + ".")),
          |entries|,
          inboxes))
  }

  /** GET `/api/digests/:uuid/inboxes`. Unlike the single-digest route, an
      empty projection answers 400, not 404. */
  function GetDigestInboxes(uuid: string, isUuid: string -> bool, reply: StoreReply,
                            parse: string -> Option<Value>, origin: string): (r: Outcome)
    ensures r.append.None?
    ensures !isUuid(uuid) ==> r == Immediate(400, PlainText(InvalidDigestId(uuid)))
    ensures isUuid(uuid) ==> r.lookup == Some(LookupOf(DigestInboxes(uuid)))
    ensures isUuid(uuid) && reply.ReadFailed? ==> HasStatus(r, 500)
    ensures isUuid(uuid) && reply.ReadDone? && !HasState(reply) ==> HasStatus(r, 400)
    ensures HasStatus(r, 200) ==> (r.response.body.InboxListBody? &&
      r.response.body.list.count == |r.response.body.list.inboxes|)
    ensures HasStatus(r, 200) <==> (isUuid(uuid) && HasState(reply) &&
      ParseState(reply, parse).Success? && InboxList(origin, uuid, ParseState(reply, parse).value).Success?)
    ensures HasStatus(r, 200) ==>
      r.response.body == InboxListBody(InboxList(origin, uuid, ParseState(reply, parse).value).value)
    ensures isUuid(uuid) && HasState(reply) && ParseState(reply, parse).Failure? ==>
      r.response == Raised(Thrown(ParseState(reply, parse).error))
    ensures (isUuid(uuid) && HasState(reply) && ParseState(reply, parse).Success? &&
      InboxList(origin, uuid, ParseState(reply, parse).value).Failure?) ==>
      r.response == Raised(Thrown(InboxList(origin, uuid, ParseState(reply, parse).value).error))
  {
    if !isUuid(uuid) then Immediate(400, PlainText(InvalidDigestId(uuid)))
    else
      var lookup := Some(LookupOf(DigestInboxes(uuid)));
      if reply.ReadFailed? then Outcome(lookup, None, Sent(500, JsonBody(Message("error", InternalError + ".")), None))
      else if !HasState(reply) then
        Outcome(lookup, None, Sent(400, JsonBody(Message("error",
          "Could not find a digest with id " + uuid + ", or found no inboxes associated with the digest.")), None))
      else match ParseState(reply, parse)
        case Failure(e) => Outcome(lookup, None, Raised(Thrown(e)))
        case Success(state) =>
          match InboxList(origin, uuid, state)
          case Failure(e) => Outcome(lookup, None, Raised(Thrown(e)))
          case Success(doc) => Outcome(lookup, None, Sent(200, InboxListBody(doc), None))
  }
}

=== FILE: events.dfy ===
/** The canonical events the routes append. Each event carries the id drawn
    for it when it was built. */
module Events {
  import opened Json

  /** The repository as a commit event carries it: only `id` and `name`. */
  datatype Repository = Repository(id: Value, name: Value)

  datatype Committer = Committer(name: Value, email: Value, date: Value)

  /** The normalised commit of a `GitHubCommitReceived` event, with the
      upstream commit object kept verbatim in `originalMessage`. */
  datatype Commit = Commit(
    sha: Value,
    author: Value,
    committer: Committer,
    message: Value,
    htmlUrl: Value,
    repository: Repository,
    branch: string,
    originalMessage: Value)

  /** The events of this core. Only the fields the routes build or read are
      modelled; `metadataDigestId` is the `metadata.digestId` of a commit
      event. */
  datatype Event =
    | GitHubCommitReceived(eventId: string, data: Commit, metadataDigestId: string)
    | DigestAdded(eventId: string, digestId: string, description: Value)
    | InboxAdded(eventId: string, inboxId: string, ownerDigestId: Value, family: Value, name: Value, url: Value)
    | InstanceAdded(eventId: string, instanceId: Value, apiKey: string)

  function EventType(e: Event): string {
    match e
    case GitHubCommitReceived(_, _, _) => "GitHubCommitReceived"
    case DigestAdded(_, _, _) => "DigestAdded"
    case InboxAdded(_, _, _, _, _, _) => "InboxAdded"
    case InstanceAdded(_, _, _) => "InstanceAdded"
  }
}

=== FILE: github_translator.dfy ===
/** Translation of a GitHub push payload into one `GitHubCommitReceived`
    event per commit. Translation is all-or-nothing: any malformed part of
    the payload fails the whole call and no event is returned. */
module GitHubTranslator {
  import opened Results
  import opened Json
  import Text
  import opened Events

  /** A supply of fresh ids: the i-th call of `uuid()` returns `ids(i)`. */
  type IdSupply = nat -> string

  ghost predicate Fresh(ids: IdSupply) {
    forall i: nat, j: nat :: i != j ==> ids(i) != ids(j)
  }

  // ---------------------------------------------------------------------------
  // What a translatable payload is
  // ---------------------------------------------------------------------------

  /** A commit the map callback can read: not null, with a committer object. */
  predicate WellFormedCommit(c: Value) {
    !IsNullish(c) && !IsNullish(Prop(c, "committer"))
  }

  /** The commits `_.map(pushEvent.commits, ...)` visits. */
  function CommitsOf(pushEvent: Value): seq<Value> {
    Elements(Prop(pushEvent, "commits"))
  }

  /** The payload shapes for which no property access throws: a `ref`
      string, a `repository` that is not null, and well-formed commits. */
  predicate Translatable(pushEvent: Value) {
    && !IsNullish(pushEvent)
    && Prop(pushEvent, "ref").Str?
    && !IsNullish(Prop(pushEvent, "repository"))
    && forall i :: 0 <= i < |CommitsOf(pushEvent)| ==> WellFormedCommit(CommitsOf(pushEvent)[i])
  }

  /** How event `e` renders commit `c` of payload `pushEvent`: every field
      the translator promises, stated one by one. */
  ghost predicate Renders(e: Event, c: Value, pushEvent: Value, digestId: string, eventId: string)
    requires Translatable(pushEvent)
  {
    var repository := Prop(pushEvent, "repository");
    var committer := Prop(c, "committer");
    && e.GitHubCommitReceived?
    && EventType(e) == "GitHubCommitReceived"
    && e.eventId == eventId
    && e.metadataDigestId == digestId
    && e.data.branch == Text.LastSegment(Prop(pushEvent, "ref").s)
    && e.data.repository == Repository(Prop(repository, "id"), Prop(repository, "name"))
    && e.data.sha == Prop(c, "id")
    && e.data.author == Prop(c, "author")
    && e.data.committer.name == Prop(committer, "name")
    && e.data.committer.email == Prop(committer, "email")
    && e.data.committer.date == Prop(c, "timestamp")
    && e.data.message == Prop(c, "message")
    && e.data.htmlUrl == Prop(c, "url")
    && e.data.originalMessage == c
  }

  // ---------------------------------------------------------------------------
  // The translation (the body of the `try` block)
  // ---------------------------------------------------------------------------

  /** `pushEvent.ref.split('/').pop()` and the errors on the way to it. */
  function Branch(pushEvent: Value): Result<string, JsError> {
    if IsNullish(pushEvent) then Failure(CannotReadProperty("ref"))
    else
      var ref := Prop(pushEvent, "ref");
      if IsNullish(ref) then Failure(CannotReadProperty("split"))
      else if !ref.Str? then Failure(NotAFunction("split"))
      else Success(Text.LastSegment(ref.s))
  }

  /** `{id: pushEvent.repository.id, name: pushEvent.repository.name}`. */
  function RepositoryOf(pushEvent: Value): Result<Repository, JsError> {
    var repository := Prop(pushEvent, "repository");
    if IsNullish(repository) then Failure(CannotReadProperty("id"))
    else Success(Repository(Prop(repository, "id"), Prop(repository, "name")))
  }

  /** The exception the map callback raises on a malformed commit: reading
      `id` of a null commit, or `name` of a missing committer. */
  function CommitFault(c: Value): JsError {
    if IsNullish(c) then CannotReadProperty("id") else CannotReadProperty("name")
  }

  function NormaliseCommit(c: Value, repository: Repository, branch: string): Commit
    requires WellFormedCommit(c)
  {
    var committer := Prop(c, "committer");
    Commit(
      Prop(c, "id"),
      Prop(c, "author"),
      Committer(Prop(committer, "name"), Prop(committer, "email"), Prop(c, "timestamp")),
      Prop(c, "message"),
      Prop(c, "url"),
      repository,
      branch,
      c)
  }

  /** The index of the first malformed commit, or `|cs|` when there is none. */
  function FirstMalformed(cs: seq<Value>): (k: nat)
    ensures k <= |cs|
    ensures forall j :: 0 <= j < k ==> WellFormedCommit(cs[j])
    ensures k < |cs| ==> !WellFormedCommit(cs[k])
  {
    if |cs| == 0 then 0
    else if !WellFormedCommit(cs[0]) then 0
    else 1 + FirstMalformed(cs[1..])
  }

  /** The map over the commits; the event for commit i draws id `ids(next + i)`. */
  function MapCommits(cs: seq<Value>, repository: Repository, branch: string, digestId: string,
                      ids: IdSupply, next: nat): (r: Result<seq<Event>, JsError>)
    ensures r.Success? <==> forall i :: 0 <= i < |cs| ==> WellFormedCommit(cs[i])
    ensures r.Success? ==> |r.value| == |cs|
    ensures r.Success? ==> forall i :: 0 <= i < |cs| ==>
      r.value[i] == GitHubCommitReceived(ids(next + i), NormaliseCommit(cs[i], repository, branch), digestId)
    ensures r.Failure? ==> FirstMalformed(cs) < |cs| && r.error == CommitFault(cs[FirstMalformed(cs)])
  {
    if |cs| == 0 then Success([])
    else if !WellFormedCommit(cs[0]) then Failure(CommitFault(cs[0]))
    else
      var head := GitHubCommitReceived(ids(next), NormaliseCommit(cs[0], repository, branch), digestId);
      match MapCommits(cs[1..], repository, branch, digestId, ids, next + 1)
      case Success(rest) =>
        assert forall i :: 1 <= i < |cs| ==> cs[i] == cs[1..][i - 1];
        Success([head] + rest)
      case Failure(e) =>
        Failure(e)
  }

  /** The body of the `try` block: the events, or the exception it raises. */
  function Translate(pushEvent: Value, digestId: string, ids: IdSupply): Result<seq<Event>, JsError> {
    match Branch(pushEvent)
    case Failure(e) => Failure(e)
    case Success(branch) =>
      match RepositoryOf(pushEvent)
      case Failure(e) => Failure(e)
      case Success(repository) =>
        MapCommits(CommitsOf(pushEvent), repository, branch, digestId, ids, 0)
  }

  // ---------------------------------------------------------------------------
  // translatePush
  // ---------------------------------------------------------------------------

  /** `translatePush(pushEvent, digestId)` as written: the `catch` block
      throws `new GitHubCommitMalformedError(ex)`, an identifier bound
      nowhere in the module (only `githubTranslator.GitHubCommitMalformedError`
      is), so every failure surfaces as a ReferenceError. */
  function TranslatePushAsWritten(pushEvent: Value, digestId: string, ids: IdSupply): (r: Result<seq<Event>, JsError>)
    ensures r.Failure? <==> Translate(pushEvent, digestId, ids).Failure?
    ensures r.Failure? ==> r.error == NotDefined("GitHubCommitMalformedError")
  {
    match Translate(pushEvent, digestId, ids)
    case Success(events) => Success(events)
    case Failure(_) => Failure(NotDefined("GitHubCommitMalformedError"))
  }

  /** `translatePush` with the error the module evidently means to throw:
      `{errorMessage: '', originalMessage: ex}` wrapping the exception. */
  function TranslatePush(pushEvent: Value, digestId: string, ids: IdSupply): (r: Result<seq<Event>, JsError>)
    ensures r.Success? <==> Translatable(pushEvent)
    ensures r.Success? ==> |r.value| == |CommitsOf(pushEvent)|
    ensures r.Success? ==> forall i :: 0 <= i < |r.value| ==>
      Renders(r.value[i], CommitsOf(pushEvent)[i], pushEvent, digestId, ids(i))
    ensures r.Failure? ==> r.error.GitHubCommitMalformed? && r.error.errorMessage == ""
  {
    match Translate(pushEvent, digestId, ids)
    case Success(events) => Success(events)
    case Failure(ex) => Failure(GitHubCommitMalformed("", ex))
  }

  // ---------------------------------------------------------------------------
  // Properties
  // ---------------------------------------------------------------------------

  /** Given a fresh-id supply, the events of one push have pairwise distinct ids. */
  lemma EventIdsDistinct(pushEvent: Value, digestId: string, ids: IdSupply)
    requires Fresh(ids)
    requires TranslatePush(pushEvent, digestId, ids).Success?
    ensures var events := TranslatePush(pushEvent, digestId, ids).value;
      forall i, j :: 0 <= i < j < |events| ==> events[i].eventId != events[j].eventId
  {
    var events := TranslatePush(pushEvent, digestId, ids).value;
    forall i, j | 0 <= i < j < |events|
      ensures events[i].eventId != events[j].eventId
    {
      assert events[i].eventId == ids(i) && events[j].eventId == ids(j);
    }
  }

  /** A payload without commits translates to no events. */
  lemma NoCommitsNoEvents(pushEvent: Value, digestId: string, ids: IdSupply)
    requires Translatable(pushEvent)
    requires CommitsOf(pushEvent) == []
    ensures TranslatePush(pushEvent, digestId, ids) == Success([])
  {
  }

  /** All events of one push share the repository, the branch and the
      `metadata.digestId`. */
  lemma EventsShareContext(pushEvent: Value, digestId: string, ids: IdSupply, i: nat, j: nat)
    requires TranslatePush(pushEvent, digestId, ids).Success?
    requires i < |TranslatePush(pushEvent, digestId, ids).value|
    requires j < |TranslatePush(pushEvent, digestId, ids).value|
    ensures var events := TranslatePush(pushEvent, digestId, ids).value;
      && events[i].data.repository == events[j].data.repository
      && events[i].data.branch == events[j].data.branch
      && events[i].metadataDigestId == events[j].metadataDigestId == digestId
  {
    var events := TranslatePush(pushEvent, digestId, ids).value;
    assert Renders(events[i], CommitsOf(pushEvent)[i], pushEvent, digestId, ids(i));
    assert Renders(events[j], CommitsOf(pushEvent)[j], pushEvent, digestId, ids(j));
  }

  /** One commit without a committer fails the whole push. */
  lemma MalformedCommitFailsAll(pushEvent: Value, digestId: string, ids: IdSupply, k: nat)
    requires k < |CommitsOf(pushEvent)|
    requires !WellFormedCommit(CommitsOf(pushEvent)[k])
    ensures TranslatePush(pushEvent, digestId, ids).Failure?
  {
  }

  /** The corrected error names the exception that stopped the translation:
      `split` of a missing ref, `id` of a missing repository, `name` of a
      missing committer. */
  lemma CorrectedErrorKeepsCause(pushEvent: Value, digestId: string, ids: IdSupply)
    requires !IsNullish(pushEvent)
    ensures IsNullish(Prop(pushEvent, "ref")) ==>
      TranslatePush(pushEvent, digestId, ids) == Failure(GitHubCommitMalformed("", CannotReadProperty("split")))
    ensures Prop(pushEvent, "ref").Str? && IsNullish(Prop(pushEvent, "repository")) ==>
      TranslatePush(pushEvent, digestId, ids) == Failure(GitHubCommitMalformed("", CannotReadProperty("id")))
    ensures (Prop(pushEvent, "ref").Str? && !IsNullish(Prop(pushEvent, "repository")) &&
      (forall i :: 0 <= i < |CommitsOf(pushEvent)| ==> !IsNullish(CommitsOf(pushEvent)[i])) &&
      !Translatable(pushEvent)) ==>
      TranslatePush(pushEvent, digestId, ids) == Failure(GitHubCommitMalformed("", CannotReadProperty("name")))
  {
    var cs := CommitsOf(pushEvent);
    var k := FirstMalformed(cs);
    if k < |cs| {
      assert !WellFormedCommit(cs[k]);
    }
  }

  /** As written, every failure raises the same ReferenceError, so the
      cause is lost: a payload without `ref` and one whose commit lacks a
      committer fail identically. */
  lemma AsWrittenLosesCause(digestId: string, ids: IdSupply)
    ensures var noRef := Obj([]);
      TranslatePushAsWritten(noRef, digestId, ids) == Failure(NotDefined("GitHubCommitMalformedError"))
    ensures var noCommitter := Obj([
        Field("ref", Str("refs/heads/main")),
        Field("repository", Obj([])),
        Field("commits", Arr([Obj([])]))]);
      TranslatePushAsWritten(noCommitter, digestId, ids) == Failure(NotDefined("GitHubCommitMalformedError"))
    ensures TranslatePush(Obj([]), digestId, ids) == Failure(GitHubCommitMalformed("", CannotReadProperty("split")))
  {
    var noCommitter := Obj([
      Field("ref", Str("refs/heads/main")),
      Field("repository", Obj([])),
      Field("commits", Arr([Obj([])]))]);
    LookupLastOccurrence(noCommitter.fields, 0);
    LookupLastOccurrence(noCommitter.fields, 1);
    LookupLastOccurrence(noCommitter.fields, 2);
    assert CommitsOf(noCommitter) == [Obj([])];
    assert !WellFormedCommit(CommitsOf(noCommitter)[0]);
  }

  /** The correction touches only the error: both forms succeed on the same
      payloads with the same events, and on failure the written form loses
      the exception the corrected one wraps. */
  lemma CorrectionChangesOnlyTheError(pushEvent: Value, digestId: string, ids: IdSupply)
    ensures TranslatePushAsWritten(pushEvent, digestId, ids).Success? <==> TranslatePush(pushEvent, digestId, ids).Success?
    ensures TranslatePush(pushEvent, digestId, ids).Success? ==>
      TranslatePushAsWritten(pushEvent, digestId, ids).value == TranslatePush(pushEvent, digestId, ids).value
    ensures TranslatePush(pushEvent, digestId, ids).Failure? ==>
      && TranslatePushAsWritten(pushEvent, digestId, ids).error == NotDefined("GitHubCommitMalformedError")
      && TranslatePush(pushEvent, digestId, ids).error.originalMessage == Translate(pushEvent, digestId, ids).error
  {
  }

  /** A push of one commit on `refs/heads/main` yields one event on branch
      `main` carrying the commit's sha. */
  lemma OneCommitOnMain(digestId: string, ids: IdSupply)
    ensures var commit := Obj([
        Field("id", Str("abc123")),
        Field("message", Str("fix")),
        Field("committer", Obj([]))]);
      var push := Obj([
        Field("ref", Str("refs/heads/main")),
        Field("repository", Obj([Field("id", Num(1)), Field("name", Str("repo"))])),
        Field("commits", Arr([commit]))]);
      var r := TranslatePush(push, digestId, ids);
      && r.Success? && |r.value| == 1
      && r.value[0].data.branch == "main"
      && r.value[0].data.sha == Str("abc123")
      && r.value[0].data.message == Str("fix")
      && r.value[0].data.repository == Repository(Num(1), Str("repo"))
  {
    var commit := Obj([
      Field("id", Str("abc123")),
      Field("message", Str("fix")),
      Field("committer", Obj([]))]);
    var push := Obj([
      Field("ref", Str("refs/heads/main")),
      Field("repository", Obj([Field("id", Num(1)), Field("name", Str("repo"))])),
      Field("commits", Arr([commit]))]);
    LookupLastOccurrence(push.fields, 0);
    LookupLastOccurrence(push.fields, 1);
    LookupLastOccurrence(push.fields, 2);
    LookupLastOccurrence(commit.fields, 0);
    LookupLastOccurrence(commit.fields, 1);
    LookupLastOccurrence(commit.fields, 2);
    var repository := Repository(Num(1), Str("repo"));
    assert CommitsOf(push) == [commit];
    Text.LastSegmentOfBranchRef();
    assert Branch(push) == Success("main");
    assert RepositoryOf(push) == Success(repository);
    assert WellFormedCommit(commit);
    var m := MapCommits([commit], repository, "main", digestId, ids, 0);
    assert m.Success? && |m.value| == 1;
    assert m.value[0] == GitHubCommitReceived(ids(0), NormaliseCommit(commit, repository, "main"), digestId);
    assert TranslatePush(push, digestId, ids) == m;
  }
}

=== FILE: hal.dfy ===
/** Hypermedia (HAL) documents the routes build themselves. Documents built
    by the external `hypermediaResponse` module are kept symbolic in `Http`. */
module Hal {
  import opened Results
  import opened Json

  datatype Link = Link(href: string, httpMethod: Option<string>, title: Option<string>)

  function PlainLink(href: string): Link {
    Link(href, None, None)
  }

  /** The body of the instance routes: links plus the echoed id and key. */
  datatype InstanceDoc = InstanceDoc(
    self: Link,
    digests: Link,
    digestCreate: Link,
    instanceId: Value,
    apiKey: Value)

  /** The inbox list of a digest: links, `count` and `_embedded.inboxes`. */
  datatype InboxListDoc = InboxListDoc(
    self: Link,
    digest: Link,
    inboxCreate: Link,
    count: nat,
    inboxes: seq<Value>)
}

=== FILE: http.dfy ===
/** The request, store replies and route outcomes every controller shares.
    A route is a pure function from a request and the store's answers to an
    `Outcome`: the projection it read, the batch it appended, and what it
    sent back. */
module Http {
  import opened Results
  import opened Json
  import Text
  import Names
  import opened Events
  import opened Hal

  /** The parts of an inbound request the routes read. Header names are
      lower-case, as Node delivers them. */
  datatype Request = Request(
    contentType: Option<string>,
    headers: map<string, string>,
    body: Value)

  /** `!contentType || contentType.toLowerCase() !== 'application/json'`
      is false. */
  predicate AcceptsJson(contentType: Option<string>) {
    contentType.Some? && Text.IsJsonContentType(contentType.value)
  }

  // ---------------------------------------------------------------------------
  // The store
  // ---------------------------------------------------------------------------

  /** One `projection.getState` query. */
  datatype Lookup = Lookup(projection: string, partition: string)

  function LookupOf(p: Names.Partition): Lookup {
    Lookup(Names.ProjectionName(p), Names.PartitionName(p))
  }

  /** The callback arguments of `getState`: an error, or a response with a
      status code and a body (absent when the store sent none). */
  datatype StoreReply =
    | ReadFailed(error: string)
    | ReadDone(statusCode: int, body: Option<string>)

  /** `!resp.body || resp.body.length < 1` is false: the projection has
      materialised state. */
  predicate HasState(reply: StoreReply) {
    reply.ReadDone? && reply.body.Some? && |reply.body.value| > 0
  }

  /** `JSON.parse(resp.body)`, with the parser an oracle for non-empty
      text. An absent or empty body is not JSON and makes it throw. */
  function ParseState(reply: StoreReply, parse: string -> Option<Value>): (r: Result<Value, JsError>)
    requires reply.ReadDone?
    ensures reply.body.None? || reply.body == Some("") ==> r == Failure(SyntaxError)
    ensures r.Success? <==> reply.body.Some? && reply.body.value != "" && parse(reply.body.value).Some?
    ensures r.Success? ==> Some(r.value) == parse(reply.body.value)
  {
    if reply.body.None? || reply.body.value == "" then Failure(SyntaxError)
    else match parse(reply.body.value)
      case Some(v) => Success(v)
      case None => Failure(SyntaxError)
  }

  /** The outcome of `streams.post`. */
  datatype AppendReply = Appended | AppendFailed(error: string)

  /** One batch written to one stream. */
  datatype Append = Append(stream: string, events: seq<Event>)

  // ---------------------------------------------------------------------------
  // Responses
  // ---------------------------------------------------------------------------

  /** Documents built by `hypermediaResponse` and `commitsAddedFormatAsHal`,
      whose code is not part of this model: kept as the call that builds them. */
  datatype Hypermedia =
    | DigestCreated(origin: string, newDigestId: Value)
    | DigestFound(origin: string, digestId: Value, data: Value)
    | InboxCreated(instanceId: string, inboxId: string)
    | InboxFound(instanceId: string, data: Value)
    | CommitsPosted(instanceId: string, inboxId: string, digestId: Value)
    | CommitsAddedHal(instanceId: string, inboxId: string, digestId: Value)

  datatype Body =
    | PlainText(text: string)
    | JsonBody(value: Value)
    | Built(doc: Hypermedia)
    | InstanceBody(instance: InstanceDoc)
    | InboxListBody(list: InboxListDoc)
    | NoBody

  /** The Location header: a literal URL, or the `href` of a link of a
      document built elsewhere. */
  datatype Location = Url(href: string) | LinkOf(doc: Hypermedia, rel: string)

  /** Errors handed to the error handler instead of a response. */
  datatype Fault =
    | CsError(messages: seq<string>, status: Option<int>)   // csError(...), with its status if given
    | Thrown(error: JsError)                               // a runtime exception
    | StoreError(storeError: string)                       // a store error passed to the handler
    | InvalidIdentifier(kind: string, value: string)       // validateUUID(kind, value) rejected

  datatype Response =
    | Sent(status: int, body: Body, location: Option<Location>)
    | Raised(fault: Fault)
    | Silent   // no response is ever sent

  datatype Outcome = Outcome(lookup: Option<Lookup>, append: Option<Append>, response: Response)

  /** A response sent before the store is touched. */
  function Immediate(status: int, body: Body): Outcome {
    Outcome(None, None, Sent(status, body, None))
  }

  /** An object with one string field, as `res.json({error: ...})` sends. */
  function Message(key: string, text: string): Value {
    Obj([Field(key, Str(text))])
  }

  /** The status the client sees, when a response is sent directly. */
  predicate HasStatus(o: Outcome, status: int) {
    o.response.Sent? && o.response.status == status
  }
}

=== FILE: inboxes_controller.dfy ===
/** The legacy inbox controller: create an inbox on a digest, post commits
    to an inbox, read an inbox. Every read goes through `getPartitionState`. */
module InboxesController {
  import opened Results
  import opened Json
  import opened Names
  import opened Events
  import opened Http
  import CommitsPost
  import GitHubTranslator

  /** `getPartitionState(name, uuid)`: projection `name`, partition
      `name + '-' + uuid`. */
  function GetPartitionState(name: string, id: string): Lookup {
    Lookup(name, PartitionKey(name, id))
  }

  /** The two names the controller passes are the digest and inbox read
      models, and the key determines the identifier asked for. */
  lemma GetPartitionStateNamesReadModels(id: string, other: string)
    ensures GetPartitionState("digest", id) == LookupOf(DigestState(id))
    ensures GetPartitionState("inbox", id) == LookupOf(InboxState(id))
    ensures GetPartitionState("inbox", id) == GetPartitionState("inbox", other) ==> id == other
    ensures GetPartitionState("digest", id) != GetPartitionState("inbox", other)
  {
    PartitionKeyInjective("inbox", id, other);
  }

  // ---------------------------------------------------------------------------
  // POST /api/:instanceId/digests/:digestId/inboxes
  // ---------------------------------------------------------------------------

  const UnsupportedMediaType: string :=
    "When creating an inbox, you must send a Content-Type: application/json header."

  const InternalError: string := "There was an internal error when trying to process your request."

  /** The checks that run before the store is asked, in order: the content
      type, the sanitizer's errors, the assignment of the path's digest id
      into the body, and the event validator's errors. The sanitizer
      answers its errors and the body as it leaves it. */
  datatype Admission = Refused(response: Response) | Admitted(body: Value)

  function Admit(request: Request, digestId: string,
                 sanitizeInbox: Value -> (seq<string>, Value), validate: Value -> seq<string>): (a: Admission)
    ensures !AcceptsJson(request.contentType) ==> a == Refused(Sent(415, PlainText(UnsupportedMediaType), None))
    ensures AcceptsJson(request.contentType) && |sanitizeInbox(request.body).0| > 0 ==>
      a == Refused(Raised(CsError(sanitizeInbox(request.body).0, None)))
    ensures a.Admitted? <==>
      AcceptsJson(request.contentType) && |sanitizeInbox(request.body).0| == 0 &&
      !IsNullish(sanitizeInbox(request.body).1) &&
      |validate(Put(sanitizeInbox(request.body).1, "digestId", Str(digestId)).value)| == 0
    ensures (AcceptsJson(request.contentType) && |sanitizeInbox(request.body).0| == 0 &&
      IsNullish(sanitizeInbox(request.body).1)) ==>
      a == Refused(Raised(Thrown(CannotSetProperty("digestId"))))
    ensures (AcceptsJson(request.contentType) && |sanitizeInbox(request.body).0| == 0 &&
      !IsNullish(sanitizeInbox(request.body).1) &&
      |validate(Put(sanitizeInbox(request.body).1, "digestId", Str(digestId)).value)| > 0) ==>
      a == Refused(Raised(CsError(validate(Put(sanitizeInbox(request.body).1, "digestId", Str(digestId)).value), None)))
    ensures a.Admitted? && sanitizeInbox(request.body).1.Obj? ==>
      a.body.Obj? && Prop(a.body, "digestId") == Str(digestId)
  {
    if !AcceptsJson(request.contentType) then Refused(Sent(415, PlainText(UnsupportedMediaType), None))
    else
      var (errors, sanitized) := sanitizeInbox(request.body);
      if |errors| > 0 then Refused(Raised(CsError(errors, None)))
      else match Put(sanitized, "digestId", Str(digestId))
        case Failure(e) => Refused(Raised(Thrown(e)))
        case Success(body) =>
          var problems := validate(body);
          if |problems| > 0 then Refused(Raised(CsError(problems, None)))
          else Admitted(body)
  }

  /** The digest the body names after the assignment, as the partition key
      reads it. */
  function BodyDigestId(body: Value): string {
    ToJsString(Prop(body, "digestId"))
  }

  /** The handler. `reply` answers the digest lookup and `appendReply` the
      append; `eventId` and `inboxId` are the ids `inboxAdded.create` draws. */
  function CreateInbox(request: Request, instanceId: string, digestId: string,
                       sanitizeInbox: Value -> (seq<string>, Value), validate: Value -> seq<string>,
                       reply: StoreReply, eventId: string, inboxId: string, appendReply: AppendReply): (r: Outcome)
    ensures Admit(request, digestId, sanitizeInbox, validate).Refused? ==>
      r == Outcome(None, None, Admit(request, digestId, sanitizeInbox, validate).response)
    ensures r.lookup.Some? <==> Admit(request, digestId, sanitizeInbox, validate).Admitted?
    ensures r.lookup.Some? ==>
      r.lookup.value == GetPartitionState("digest", BodyDigestId(Admit(request, digestId, sanitizeInbox, validate).body))
    ensures r.lookup.Some? && reply.ReadFailed? ==>
      r.append.None? && r.response == Sent(500, JsonBody(Message("error", InternalError)), None)
    ensures r.lookup.Some? && reply.ReadDone? && !HasState(reply) ==>
      var owner := BodyDigestId(Admit(request, digestId, sanitizeInbox, validate).body);
      r.append.None? && r.response == Sent(404, JsonBody(Message("error", "Could not find a digest with id " + owner + ".")), None)
    ensures r.append.Some? <==> r.lookup.Some? && HasState(reply)
    ensures r.append.Some? ==>
      var body := Admit(request, digestId, sanitizeInbox, validate).body;
      r.append.value == Append(StreamName(Inboxes(instanceId)),
        [InboxAdded(eventId, inboxId, Prop(body, "digestId"), Prop(body, "family"), Prop(body, "name"), Prop(body, "url"))])
    ensures HasStatus(r, 201) <==> r.append.Some? && appendReply.Appended?
    ensures HasStatus(r, 201) ==>
      r.response == Sent(201, Built(InboxCreated(instanceId, inboxId)), Some(LinkOf(InboxCreated(instanceId, inboxId), "self")))
    ensures r.append.Some? && appendReply.AppendFailed? ==>
      r.response == Sent(500, JsonBody(Message("errors", CommitsPost.RetryPrefix + appendReply.error)), None)
  {
    match Admit(request, digestId, sanitizeInbox, validate)
    case Refused(response) => Outcome(None, None, response)
    case Admitted(body) =>
      var owner := BodyDigestId(body);
      var lookup := Some(GetPartitionState("digest", owner));
      if reply.ReadFailed? then Outcome(lookup, None, Sent(500, JsonBody(Message("error", InternalError)), None))
      else if !HasState(reply) then
        Outcome(lookup, None, Sent(404, JsonBody(Message("error", "Could not find a digest with id " + owner + ".")), None))
      else
        var event := InboxAdded(eventId, inboxId, Prop(body, "digestId"), Prop(body, "family"), Prop(body, "name"), Prop(body, "url"));
        var append := Some(Append(StreamName(Inboxes(instanceId)), [event]));
        if appendReply.AppendFailed? then
          Outcome(lookup, append, Sent(500, JsonBody(Message("errors", CommitsPost.RetryPrefix + appendReply.error)), None))
        else
          var doc := InboxCreated(instanceId, inboxId);
          Outcome(lookup, append, Sent(201, Built(doc), Some(LinkOf(doc, "self"))))
  }

  /** The new inbox belongs to the digest named in the path, whatever the
      body said: the assignment overwrites any `digestId` the client sent,
      and the store is asked about that same digest. */
  lemma CreatedInboxBelongsToPathDigest(request: Request, instanceId: string, digestId: string,
                                        sanitizeInbox: Value -> (seq<string>, Value), validate: Value -> seq<string>,
                                        reply: StoreReply, eventId: string, inboxId: string, appendReply: AppendReply)
    requires sanitizeInbox(request.body).1.Obj?
    requires CreateInbox(request, instanceId, digestId, sanitizeInbox, validate, reply, eventId, inboxId, appendReply).append.Some?
    ensures var r := CreateInbox(request, instanceId, digestId, sanitizeInbox, validate, reply, eventId, inboxId, appendReply);
      && r.lookup == Some(LookupOf(DigestState(digestId)))
      && r.append.value.events[0].ownerDigestId == Str(digestId)
  {
    GetPartitionStateNamesReadModels(digestId, digestId);
  }

  // ---------------------------------------------------------------------------
  // POST /api/:instanceId/inboxes/:inboxId/commits
  // ---------------------------------------------------------------------------

  /** The legacy commits route is the shared handler; its inbox lookup is
      the one `getPartitionState('inbox', inboxId)` makes. */
  lemma CommitsLookupIsPartitionState(request: Request, instanceId: string, inboxId: string, isUuid: string -> bool,
                                      reply: StoreReply, parse: string -> Option<Value>,
                                      ids: GitHubTranslator.IdSupply, appendReply: AppendReply)
    requires AcceptsJson(request.contentType) && isUuid(inboxId)
    ensures CommitsPost.PostCommits(request, instanceId, inboxId, isUuid, reply, parse, ids, appendReply).lookup ==
      Some(GetPartitionState("inbox", inboxId))
  {
    GetPartitionStateNamesReadModels(inboxId, inboxId);
  }

  // ---------------------------------------------------------------------------
  // GET /api/:instanceId/inboxes/:inboxId
  // ---------------------------------------------------------------------------

  function InvalidInboxId(inboxId: string): string {
    "The value \"" + inboxId + "\" is not recognized as a valid inbox identifier."
  }

  function GetInbox(instanceId: string, inboxId: string, isUuid: string -> bool, reply: StoreReply,
                    parse: string -> Option<Value>): (r: Outcome)
    ensures r.append.None?
    ensures !isUuid(inboxId) ==> r == Immediate(400, PlainText(InvalidInboxId(inboxId)))
    ensures isUuid(inboxId) ==> r.lookup == Some(GetPartitionState("inbox", inboxId))
    ensures isUuid(inboxId) && reply.ReadFailed? ==>
      r.response == Sent(500, JsonBody(Message("error", "There was an internal error when trying to process your request")), None)
    ensures isUuid(inboxId) && reply.ReadDone? && !HasState(reply) ==>
      r.response == Sent(404, JsonBody(Message("error", "Could not find an inbox with id " + inboxId)), None)
    ensures HasStatus(r, 200) <==> isUuid(inboxId) && HasState(reply) && ParseState(reply, parse).Success?
    ensures HasStatus(r, 200) ==> r.response.body == Built(InboxFound(instanceId, ParseState(reply, parse).value))
  {
    if !isUuid(inboxId) then Immediate(400, PlainText(InvalidInboxId(inboxId)))
    else
      var lookup := Some(GetPartitionState("inbox", inboxId));
      if reply.ReadFailed? then
        Outcome(lookup, None, Sent(500, JsonBody(Message("error", "There was an internal error when trying to process your request")), None))
      else if !HasState(reply) then
        Outcome(lookup, None, Sent(404, JsonBody(Message("error", "Could not find an inbox with id " + inboxId)), None))
      else match ParseState(reply, parse)
        case Failure(e) => Outcome(lookup, None, Raised(Thrown(e)))
        case Success(data) => Outcome(lookup, None, Sent(200, Built(InboxFound(instanceId, data)), None))
  }
}

=== FILE: inboxes_router.dfy ===
/** The newer inbox router (`inboxes/inboxesController.js`). Inbox creation
    and reading are delegated to handlers of their own; the commits route
    carries the legacy handler's text, except that `getPartitionState`,
    which the legacy controller defines inside its own `init`, is bound
    nowhere in this module. */
module InboxesRouter {
  import opened Results
  import opened Json
  import opened Names
  import opened Http
  import opened GitHubTranslator
  import CommitsPost
  import Store

  /** The commits route as written. The content-type and identifier checks
      answer as the legacy handler does; past them, calling the unbound
      `getPartitionState` throws a ReferenceError before the store is
      asked, so nothing is read and nothing is appended. */
  function PostCommitsAsWritten(request: Request, inboxId: string, isUuid: string -> bool): (r: Outcome)
    ensures r.lookup.None? && r.append.None?
    ensures !AcceptsJson(request.contentType) ==> r == Immediate(415, PlainText(CommitsPost.UnsupportedMediaType))
    ensures AcceptsJson(request.contentType) && !isUuid(inboxId) ==>
      r == Immediate(400, JsonBody(Message("message", CommitsPost.InvalidInboxId(inboxId))))
    ensures r.response.Sent? <==> !(AcceptsJson(request.contentType) && isUuid(inboxId))
    ensures r.response.Raised? ==> r.response.fault == Thrown(NotDefined("getPartitionState"))
  {
    if !AcceptsJson(request.contentType) then Immediate(415, PlainText(CommitsPost.UnsupportedMediaType))
    else if !isUuid(inboxId) then Immediate(400, JsonBody(Message("message", CommitsPost.InvalidInboxId(inboxId))))
    else Outcome(None, None, Raised(Thrown(NotDefined("getPartitionState"))))
  }

  /** The written route and the intended handler agree on every request
      refused before the store; on every other request the intended handler
      reads the inbox where the written route throws instead. */
  lemma RouterDivergesAtTheStore(request: Request, instanceId: string, inboxId: string, isUuid: string -> bool,
                                 reply: StoreReply, parse: string -> Option<Value>, ids: IdSupply,
                                 appendReply: AppendReply)
    ensures var intended := CommitsPost.PostCommits(request, instanceId, inboxId, isUuid, reply, parse, ids, appendReply);
      && (!(AcceptsJson(request.contentType) && isUuid(inboxId)) ==> PostCommitsAsWritten(request, inboxId, isUuid) == intended)
      && (AcceptsJson(request.contentType) && isUuid(inboxId) ==>
            && intended.lookup == Some(LookupOf(InboxState(inboxId)))
            && PostCommitsAsWritten(request, inboxId, isUuid).response == Raised(Thrown(NotDefined("getPartitionState"))))
  {
  }

  /** No delivery through the written route ever changes the store, whatever
      the store would have answered. */
  lemma RouterCommitsNeverAppend(log: Store.Log, request: Request, inboxId: string, isUuid: string -> bool,
                                 appendReply: AppendReply)
    ensures Store.Record(log, PostCommitsAsWritten(request, inboxId, isUuid), appendReply) == log
  {
    Store.NoAppendNoChange(log, PostCommitsAsWritten(request, inboxId, isUuid), appendReply);
  }

  /** The input that shows the difference: a well-formed push to a readable
      inbox is appended by the intended handler and lost by the written
      route, which answers with an exception instead. */
  lemma RouterLosesEveryPush(request: Request, instanceId: string, inboxId: string, isUuid: string -> bool,
                             reply: StoreReply, parse: string -> Option<Value>, ids: IdSupply,
                             appendReply: AppendReply)
    requires CommitsPost.ReachesPush(request, inboxId, isUuid, reply, parse)
    requires Translatable(request.body)
    ensures CommitsPost.PostCommits(request, instanceId, inboxId, isUuid, reply, parse, ids, appendReply).append.Some?
    ensures PostCommitsAsWritten(request, inboxId, isUuid).append.None?
    ensures !PostCommitsAsWritten(request, inboxId, isUuid).response.Sent?
  {
  }
}

=== FILE: instances_controller.dfy ===
/** The instance routes: the API-key gate, POST `/api/instances` and GET
    `/api/instances/:instanceId`, both answering the same instance document. */
module InstancesController {
  import opened Results
  import opened Json
  import opened Names
  import opened Events
  import opened Hal
  import opened Http
  import Store

  /** `authorize`: the configured key must be set and the query's `apiKey`
      must be set and strictly equal to it. A key given twice in the query
      arrives as an array and never matches. */
  function Authorize(configApiKey: string, queryApiKey: Value): (ok: bool)
    ensures ok <==> configApiKey != "" && queryApiKey == Str(configApiKey)
  {
    !(configApiKey == "" || !Truthy(queryApiKey) || queryApiKey != Str(configApiKey))
  }

  /** With no key configured, which is the default, every request is refused. */
  lemma UnconfiguredKeyRefusesAll(queryApiKey: Value)
    ensures !Authorize("", queryApiKey)
  {
  }

  const Unauthorized: Fault := CsError(["apiKey parameter missing or invalid"], Some(401))

  const UnsupportedMediaType: string :=
    "When creating an instance, you must send a Content-Type: application/json header."

  /** `createHypermediaResponse(href, instanceId, apiKey)`. */
  function CreateHypermediaResponse(href: string -> string, instanceId: Value, apiKey: Value): (d: InstanceDoc)
    ensures d.instanceId == instanceId && d.apiKey == apiKey
    ensures d.self == PlainLink(href("/api/instances/" + ToJsString(instanceId)))
    ensures d.digests == PlainLink(href("/api/" + ToJsString(instanceId) + "/digests"))
    ensures d.digestCreate.href == d.digests.href
    ensures d.digestCreate.httpMethod == Some("POST")
    ensures d.digestCreate.title == Some("Endpoint for creating a digest on instance " + ToJsString(instanceId) + ".")
  {
    var id := ToJsString(instanceId);
    InstanceDoc(
      PlainLink(href("/api/instances/" + id)),
      PlainLink(href("/api/" + id + "/digests")),
      Link(href("/api/" + id + "/digests"), Some("POST"),
        Some("Endpoint for creating a digest on instance " + id + ".")),
      instanceId,
      apiKey)
  }

  /** POST `/api/instances`. `instanceKey` is the key `instanceAdded.create`
      draws and `eventId` its event id. */
  function PostInstance(request: Request, configApiKey: string, queryApiKey: Value, href: string -> string,
                        validate: Value -> seq<string>, eventId: string, instanceKey: string,
                        appendReply: AppendReply): (r: Outcome)
    ensures r.lookup.None?
    ensures !Authorize(configApiKey, queryApiKey) ==> r == Outcome(None, None, Raised(Unauthorized))
    ensures Authorize(configApiKey, queryApiKey) && !AcceptsJson(request.contentType) ==>
      r == Outcome(None, None, Raised(CsError([UnsupportedMediaType], Some(415))))
    ensures Authorize(configApiKey, queryApiKey) && AcceptsJson(request.contentType) && |validate(request.body)| > 0 ==>
      r == Outcome(None, None, Raised(CsError(validate(request.body), None)))
    ensures (Authorize(configApiKey, queryApiKey) && AcceptsJson(request.contentType) &&
      |validate(request.body)| == 0 && IsNullish(request.body)) ==>
      r == Outcome(None, None, Raised(Thrown(CannotReadProperty("instanceId"))))
    ensures r.append.Some? <==>
      Authorize(configApiKey, queryApiKey) && AcceptsJson(request.contentType) &&
      |validate(request.body)| == 0 && !IsNullish(request.body)
    ensures r.append.Some? ==> (r.append.value ==
      Append(StreamName(Instances), [InstanceAdded(eventId, Prop(request.body, "instanceId"), instanceKey)]))
    ensures HasStatus(r, 201) <==> r.append.Some? && appendReply.Appended?
    ensures HasStatus(r, 201) ==> (r.response.body.InstanceBody? &&
      r.response.body.instance.instanceId == Prop(request.body, "instanceId") &&
      r.response.body.instance.apiKey == Str(instanceKey) &&
      r.response.location == Some(Url(r.response.body.instance.self.href)))
    ensures r.append.Some? && appendReply.AppendFailed? ==> r.response == Raised(StoreError(appendReply.error))
  {
    if !Authorize(configApiKey, queryApiKey) then Outcome(None, None, Raised(Unauthorized))
    else if !AcceptsJson(request.contentType) then Outcome(None, None, Raised(CsError([UnsupportedMediaType], Some(415))))
    else
      var errors := validate(request.body);
      if |errors| > 0 then Outcome(None, None, Raised(CsError(errors, None)))
      else match Get(request.body, "instanceId")
        case Failure(e) => Outcome(None, None, Raised(Thrown(e)))
        case Success(instanceId) =>
          var append := Some(Append(StreamName(Instances), [InstanceAdded(eventId, instanceId, instanceKey)]));
          if appendReply.AppendFailed? then Outcome(None, append, Raised(StoreError(appendReply.error)))
          else
            var doc := CreateHypermediaResponse(href, instanceId, Str(instanceKey));
            Outcome(None, append, Sent(201, InstanceBody(doc), Some(Url(doc.self.href))))
  }

  function InvalidInstanceId(instanceId: string): string {
    "The value \"" + instanceId + "\" is not recognized as a valid instance identifier."
  }

  /** GET `/api/instances/:instanceId`. A status of 404 from the store counts
      as absent state, like an empty body. */
  function GetInstance(instanceId: string, isUuid: string -> bool, reply: StoreReply,
                       parse: string -> Option<Value>, href: string -> string): (r: Outcome)
    ensures r.append.None?
    ensures !isUuid(instanceId) ==> r == Outcome(None, None, Raised(CsError([InvalidInstanceId(instanceId)], None)))
    ensures isUuid(instanceId) ==> r.lookup == Some(LookupOf(InstanceState(instanceId)))
    ensures isUuid(instanceId) && reply.ReadFailed? ==> r.response == Raised(StoreError(reply.error))
    ensures isUuid(instanceId) && reply.ReadDone? && (!HasState(reply) || reply.statusCode == 404) ==>
      r.response == Raised(CsError(["Could not find an instance with id " + instanceId], Some(404)))
    ensures HasStatus(r, 200) <==>
      isUuid(instanceId) && HasState(reply) && reply.statusCode != 404 &&
      ParseState(reply, parse).Success? && !IsNullish(ParseState(reply, parse).value)
    ensures HasStatus(r, 200) ==> r.response.body == InstanceBody(CreateHypermediaResponse(href,
      Prop(ParseState(reply, parse).value, "instanceId"), Prop(ParseState(reply, parse).value, "apiKey")))
  {
    if !isUuid(instanceId) then Outcome(None, None, Raised(CsError([InvalidInstanceId(instanceId)], None)))
    else
      var lookup := Some(LookupOf(InstanceState(instanceId)));
      if reply.ReadFailed? then Outcome(lookup, None, Raised(StoreError(reply.error)))
      else if !HasState(reply) || reply.statusCode == 404 then
        Outcome(lookup, None, Raised(CsError(["Could not find an instance with id " + instanceId], Some(404))))
      else match ParseState(reply, parse)
        case Failure(e) => Outcome(lookup, None, Raised(Thrown(e)))
        case Success(data) =>
          if IsNullish(data) then Outcome(lookup, None, Raised(Thrown(CannotReadProperty("instanceId"))))
          else
            var doc := CreateHypermediaResponse(href, Prop(data, "instanceId"), Prop(data, "apiKey"));
            Outcome(lookup, None, Sent(200, InstanceBody(doc), None))
  }

  /** The instance read model as the projection stores an `InstanceAdded`
      event: the id and the key. */
  function StoredInstance(e: Event): Value
    requires e.InstanceAdded?
  {
    Obj([Field("instanceId", e.instanceId), Field("apiKey", Str(e.apiKey))])
  }

  /** Reading back an instance gives the document its creation answered:
      when the store holds the state of the appended event, GET returns
      the same links, id and key as the 201 of the POST. */
  lemma GetReturnsPostedDocument(request: Request, configApiKey: string, queryApiKey: Value, href: string -> string,
                                 validate: Value -> seq<string>, eventId: string, instanceKey: string,
                                 instanceId: string, isUuid: string -> bool, body: string,
                                 parse: string -> Option<Value>)
    requires HasStatus(PostInstance(request, configApiKey, queryApiKey, href, validate, eventId, instanceKey, Appended), 201)
    requires isUuid(instanceId) && body != ""
    requires parse(body) == Some(StoredInstance(
      PostInstance(request, configApiKey, queryApiKey, href, validate, eventId, instanceKey, Appended).append.value.events[0]))
    ensures GetInstance(instanceId, isUuid, ReadDone(200, Some(body)), parse, href).response.body ==
      PostInstance(request, configApiKey, queryApiKey, href, validate, eventId, instanceKey, Appended).response.body
  {
    var e := PostInstance(request, configApiKey, queryApiKey, href, validate, eventId, instanceKey, Appended).append.value.events[0];
    var state := StoredInstance(e);
    LookupLastOccurrence(state.fields, 0);
    LookupLastOccurrence(state.fields, 1);
  }
}

=== FILE: json.dfy ===
/** JSON values as the routes see them after `JSON.parse` or `bodyParser.json`,
    with the JavaScript semantics of property access, `underscore` iteration,
    `_.omit`, `_.extend` and string conversion. */
module Json {
  import opened Results
  import Text

  /** A JavaScript value built from JSON. `Undefined` stands for a property
      that is absent. Object fields keep their textual order. */
  datatype Value =
    | Undefined
    | Null
    | Bool(b: bool)
    | Num(n: int)
    | Str(s: string)
    | Arr(items: seq<Value>)
    | Obj(fields: seq<Field>)

  datatype Field = Field(key: string, value: Value)

  /** The runtime errors the modelled code can raise. */
  datatype JsError =
    | CannotReadProperty(property: string)   // TypeError: reading a property of null/undefined
    | CannotSetProperty(property: string)    // TypeError: writing a property of null/undefined
    | NotAFunction(name: string)             // TypeError: calling a method the value lacks
    | NotDefined(identifier: string)         // ReferenceError: an identifier bound nowhere
    | SyntaxError                            // JSON.parse rejected its input
    | GitHubCommitMalformed(errorMessage: string, originalMessage: JsError)

  /** Reading a property of these throws a TypeError. */
  predicate IsNullish(v: Value) {
    v.Undefined? || v.Null?
  }

  /** JavaScript truthiness: what `if (v)` and `!v` test. */
  predicate Truthy(v: Value) {
    match v
    case Undefined => false
    case Null => false
    case Bool(b) => b
    case Num(n) => n != 0
    case Str(s) => s != ""
    case _ => true
  }

  // ---------------------------------------------------------------------------
  // Fields
  // ---------------------------------------------------------------------------

  predicate HasKey(fs: seq<Field>, k: string) {
    |fs| > 0 && (fs[0].key == k || HasKey(fs[1..], k))
  }

  /** The value of key `k`; when a key repeats, the last occurrence wins, as
      in `JSON.parse`. */
  function Lookup(fs: seq<Field>, k: string): Value {
    if |fs| == 0 then Undefined
    else if HasKey(fs[1..], k) then Lookup(fs[1..], k)
    else if fs[0].key == k then fs[0].value
    else Undefined
  }

  lemma LookupAbsent(fs: seq<Field>, k: string)
    requires !HasKey(fs, k)
    ensures Lookup(fs, k) == Undefined
  {
  }

  lemma {:induction false} HasKeyIff(fs: seq<Field>, k: string)
    ensures HasKey(fs, k) <==> exists i :: 0 <= i < |fs| && fs[i].key == k
  {
    if |fs| > 0 {
      HasKeyIff(fs[1..], k);
      if HasKey(fs[1..], k) {
        var i :| 0 <= i < |fs[1..]| && fs[1..][i].key == k;
        assert fs[i + 1].key == k;
      }
      if exists i :: 0 <= i < |fs| && fs[i].key == k {
        var i :| 0 <= i < |fs| && fs[i].key == k;
        if i > 0 {
          assert fs[1..][i - 1].key == k;
        }
      }
    }
  }

  /** The field a key last occurs in is the one a lookup finds. */
  lemma {:induction false} LookupLastOccurrence(fs: seq<Field>, i: nat)
    requires i < |fs|
    requires forall j :: i < j < |fs| ==> fs[j].key != fs[i].key
    ensures Lookup(fs, fs[i].key) == fs[i].value
  {
    var k := fs[i].key;
    if i == 0 {
      HasKeyIff(fs[1..], k);
    } else {
      HasKeyIff(fs[1..], k);
      assert fs[1..][i - 1] == fs[i];
      LookupLastOccurrence(fs[1..], i - 1);
    }
  }

  /** `v[k]` for a value known not to be null or undefined: own fields of an
      object, `undefined` otherwise. */
  function Prop(v: Value, k: string): Value {
    if v.Obj? then Lookup(v.fields, k) else Undefined
  }

  /** `v.k`, which throws when `v` is null or undefined. */
  function Get(v: Value, k: string): (r: Result<Value, JsError>)
    ensures r.Failure? <==> IsNullish(v)
    ensures r.Failure? ==> r.error == CannotReadProperty(k)
    ensures r.Success? ==> r.value == Prop(v, k)
  {
    if IsNullish(v) then Failure(CannotReadProperty(k)) else Success(Prop(v, k))
  }

  /** Every field with key `k` given the value `x`. */
  function Replace(fs: seq<Field>, k: string, x: Value): (r: seq<Field>)
    ensures |r| == |fs|
  {
    if |fs| == 0 then []
    else [if fs[0].key == k then Field(k, x) else fs[0]] + Replace(fs[1..], k, x)
  }

  /** Assignment `o[k] = x` on an object's fields: an existing key keeps
      its position, a new key goes last. */
  function Assign(fs: seq<Field>, k: string, x: Value): seq<Field> {
    if HasKey(fs, k) then Replace(fs, k, x) else fs + [Field(k, x)]
  }

  lemma {:induction false} ReplaceKeys(fs: seq<Field>, k: string, x: Value, j: string)
    ensures HasKey(Replace(fs, k, x), j) == HasKey(fs, j)
    ensures HasKey(fs, k) && j == k ==> Lookup(Replace(fs, k, x), j) == x
    ensures j != k ==> Lookup(Replace(fs, k, x), j) == Lookup(fs, j)
  {
    if |fs| > 0 {
      ReplaceKeys(fs[1..], k, x, j);
      assert Replace(fs, k, x)[1..] == Replace(fs[1..], k, x);
    }
  }

  lemma {:induction false} AppendKeys(fs: seq<Field>, k: string, x: Value, j: string)
    ensures HasKey(fs + [Field(k, x)], j) == (HasKey(fs, j) || j == k)
    ensures Lookup(fs + [Field(k, x)], j) == if j == k then x else Lookup(fs, j)
  {
    if |fs| > 0 {
      assert (fs + [Field(k, x)])[1..] == fs[1..] + [Field(k, x)];
      AppendKeys(fs[1..], k, x, j);
    } else {
      assert ([] + [Field(k, x)])[1..] == [];
    }
  }

  /** After `o[k] = x`, reading `k` gives `x` and every other key reads as
      before; the keys are the old ones plus `k`. */
  lemma AssignLookup(fs: seq<Field>, k: string, x: Value, j: string)
    ensures HasKey(Assign(fs, k, x), j) == (HasKey(fs, j) || j == k)
    ensures Lookup(Assign(fs, k, x), j) == if j == k then x else Lookup(fs, j)
  {
    ReplaceKeys(fs, k, x, j);
    AppendKeys(fs, k, x, j);
  }

  /** `o.k = x`: an object gains or updates the field; writing to null or
      undefined throws; other values ignore the write (the model does not
      represent named properties on arrays or primitives). */
  function Put(v: Value, k: string, x: Value): (r: Result<Value, JsError>)
    ensures r.Failure? <==> IsNullish(v)
    ensures r.Success? && v.Obj? ==> r.value.Obj? && Prop(r.value, k) == x
  {
    if IsNullish(v) then Failure(CannotSetProperty(k))
    else if v.Obj? then
      AssignLookup(v.fields, k, x, k);
      Success(Obj(Assign(v.fields, k, x)))
    else Success(v)
  }

  /** `_.extend(target, source)` on field lists: each source field is
      assigned in order. */
  function Extend(target: seq<Field>, source: seq<Field>): seq<Field>
    decreases |source|
  {
    if |source| == 0 then target
    else Extend(Assign(target, source[0].key, source[0].value), source[1..])
  }

  /** After extending, a key the source has reads as in the source, and any
      other key reads as in the target. */
  lemma {:induction false} ExtendLookup(target: seq<Field>, source: seq<Field>, j: string)
    ensures Lookup(Extend(target, source), j) ==
      if HasKey(source, j) then Lookup(source, j) else Lookup(target, j)
    decreases |source|
  {
    if |source| > 0 {
      var f := source[0];
      ExtendLookup(Assign(target, f.key, f.value), source[1..], j);
      AssignLookup(target, f.key, f.value, j);
    }
  }

  /** `_.omit(o, k)` on field lists: every field with key `k` dropped. */
  function Omit(fs: seq<Field>, k: string): (r: seq<Field>)
    ensures |r| <= |fs|
  {
    if |fs| == 0 then []
    else if fs[0].key == k then Omit(fs[1..], k)
    else [fs[0]] + Omit(fs[1..], k)
  }

  /** Omitting `k` removes exactly that key and leaves every other key's
      value as it was. */
  lemma {:induction false} OmitLookup(fs: seq<Field>, k: string, j: string)
    ensures HasKey(Omit(fs, k), j) == (HasKey(fs, j) && j != k)
    ensures Lookup(Omit(fs, k), j) == if j == k then Undefined else Lookup(fs, j)
  {
    if |fs| > 0 {
      OmitLookup(fs[1..], k, j);
      if fs[0].key != k {
        assert ([fs[0]] + Omit(fs[1..], k))[1..] == Omit(fs[1..], k);
      }
    }
  }

  // ---------------------------------------------------------------------------
  // Iteration
  // ---------------------------------------------------------------------------

  /** Omitting `k` leaves exactly the other keys. */
  lemma OmitKeys(fs: seq<Field>, k: string)
    ensures forall j :: HasKey(Omit(fs, k), j) == (HasKey(fs, j) && j != k)
  {
    forall j {
      OmitLookup(fs, k, j);
    }
  }

  /** The own keys of an object as `Object.keys` lists them: each key once,
      at the place of its first occurrence. (A key given twice in the text
      keeps its first place and, through `Lookup`, its last value, as
      `JSON.parse` leaves it.) */
  function Keys(fs: seq<Field>): (ks: seq<string>)
    ensures forall k :: k in ks <==> HasKey(fs, k)
    ensures forall i, j :: 0 <= i < j < |ks| ==> ks[i] != ks[j]
    ensures |ks| <= |fs|
    decreases |fs|
  {
    if |fs| == 0 then []
    else
      var k := fs[0].key;
      var rest := Keys(Omit(fs[1..], k));
      OmitKeys(fs[1..], k);
      assert forall i :: 0 <= i < |rest| ==> rest[i] != k by {
        forall i | 0 <= i < |rest|
          ensures rest[i] != k
        {
          assert rest[i] in rest;
        }
      }
      [k] + rest
  }

  /** Underscore's `MAX_ARRAY_INDEX`, `2^53 - 1`. */
  const MaxArrayIndex: int := 0x1F_FFFF_FFFF_FFFF

  /** Underscore's `isArrayLike` for an object: its `length` property is a
      number from 0 to `MAX_ARRAY_INDEX`. Such an object is walked by index,
      not by key. */
  predicate IsArrayLike(fs: seq<Field>) {
    var length := Lookup(fs, "length");
    length.Num? && 0 <= length.n <= MaxArrayIndex
  }

  /** The items `_.map(v, f)` visits: array elements; the characters of a
      string; `v[0]` to `v[length - 1]` of an array-like object; the values
      of the other objects' own keys; nothing for null, undefined, booleans
      and numbers. */
  function Elements(v: Value): (r: seq<Value>)
    ensures v.Arr? ==> r == v.items
    ensures v.Str? ==> |r| == |v.s| && forall i :: 0 <= i < |r| ==> r[i] == Str([v.s[i]])
    ensures v.Obj? && IsArrayLike(v.fields) ==> (|r| == Lookup(v.fields, "length").n &&
      forall i :: 0 <= i < |r| ==> r[i] == Lookup(v.fields, Text.NatToString(i)))
    ensures v.Obj? && !IsArrayLike(v.fields) ==> (|r| == |Keys(v.fields)| &&
      forall i :: 0 <= i < |r| ==> r[i] == Lookup(v.fields, Keys(v.fields)[i]))
    ensures !(v.Arr? || v.Obj? || v.Str?) ==> r == []
  {
    match v
    case Arr(xs) => xs
    case Obj(fs) =>
      if IsArrayLike(fs) then
        seq(Lookup(fs, "length").n, i requires 0 <= i => Lookup(fs, Text.NatToString(i)))
      else
        var entries := Entries(v);
        seq(|entries|, i requires 0 <= i < |entries| => entries[i].value)
    case Str(s) => seq(|s|, i requires 0 <= i < |s| => Str([s[i]]))
    case _ => []
  }

  /** The pairs `_.keys(v)` and `v[key]` visit: each own key of an object
      once, with the value a read of that key gives; array indices with
      their elements; nothing for any other value. */
  function Entries(v: Value): (r: seq<Field>)
    ensures v.Obj? ==> (forall i, j :: 0 <= i < j < |r| ==> r[i].key != r[j].key)
    ensures v.Obj? ==> (forall i :: 0 <= i < |r| ==>
      HasKey(v.fields, r[i].key) && r[i].value == Lookup(v.fields, r[i].key))
    ensures v.Obj? ==> (forall k :: HasKey(v.fields, k) ==> exists i :: 0 <= i < |r| && r[i].key == k)
    ensures v.Arr? ==> (|r| == |v.items| &&
      forall i :: 0 <= i < |r| ==> r[i] == Field(Text.NatToString(i), v.items[i]))
    ensures !(v.Arr? || v.Obj?) ==> r == []
  {
    match v
    case Obj(fs) =>
      var ks := Keys(fs);
      var r := seq(|ks|, i requires 0 <= i < |ks| => Field(ks[i], Lookup(fs, ks[i])));
      assert forall k :: HasKey(fs, k) ==> exists i :: 0 <= i < |r| && r[i].key == k by {
        forall k | HasKey(fs, k)
          ensures exists i :: 0 <= i < |r| && r[i].key == k
        {
          var i :| 0 <= i < |ks| && ks[i] == k;
          assert r[i].key == k;
        }
      }
      r
    case Arr(xs) => seq(|xs|, i requires 0 <= i < |xs| => Field(Text.NatToString(i), xs[i]))
    case _ => []
  }

  /** A key the text repeats is listed once, with its last value:
      `{"k": x, "k": y}` has one entry. */
  lemma RepeatedKeyListedOnce(k: string, x: Value, y: Value)
    ensures Entries(Obj([Field(k, x), Field(k, y)])) == [Field(k, y)]
  {
    var fs := [Field(k, x), Field(k, y)];
    assert Omit(fs[1..], k) == [];
    assert Keys(fs) == [k] + Keys([]);
    LookupLastOccurrence(fs, 1);
  }

  // ---------------------------------------------------------------------------
  // String conversion
  // ---------------------------------------------------------------------------

  /** `'' + v`: the text a value contributes to a string concatenation. */
  function ToJsString(v: Value): string
    decreases v
  {
    match v
    case Undefined => "undefined"
    case Null => "null"
    case Bool(b) => if b then "true" else "false"
    case Num(n) => Text.IntToString(n)
    case Str(s) => s
    case Arr(xs) => JoinElements(xs)
    case Obj(_) => "[object Object]"
  }

  /** `Array.prototype.join(',')`, where null and undefined elements
      contribute nothing. */
  function JoinElements(xs: seq<Value>): string
    decreases xs
  {
    if |xs| == 0 then ""
    else
      var last := xs[|xs| - 1];
      var text := if IsNullish(last) then "" else ToJsString(last);
      if |xs| == 1 then text else JoinElements(xs[..|xs| - 1]) + "," + text
  }
}

=== FILE: names.dfy ===
/** Names of event-store streams and projection partitions. Every name is a
    fixed prefix followed by an identifier, so a name determines the entity
    it belongs to. */
module Names {

  /** The append-only streams the routes write to. */
  datatype Stream =
    | Digests                          // "digests"
    | Instances                        // "instances"
    | Inboxes(instanceId: string)      // "inboxes-" + instanceId
    | InboxCommits(inboxId: string)    // "inboxCommits-" + inboxId

  function StreamName(s: Stream): string {
    match s
    case Digests => "digests"
    case Instances => "instances"
    case Inboxes(instanceId) => "inboxes-" + instanceId
    case InboxCommits(inboxId) => "inboxCommits-" + inboxId
  }

  /** Prefix concatenation is injective once the prefix is fixed. */
  lemma PrefixInjective(prefix: string, x: string, y: string)
    ensures prefix + x == prefix + y ==> x == y
  {
    if prefix + x == prefix + y {
      assert x == (prefix + x)[|prefix|..];
      assert y == (prefix + y)[|prefix|..];
    }
  }

  /** Different streams never share a name: the stream a batch is written
      to identifies its kind and its identifier. */
  lemma StreamNameInjective(a: Stream, b: Stream)
    ensures StreamName(a) == StreamName(b) ==> a == b
  {
    match (a, b)
    case (Inboxes(x), Inboxes(y)) =>
      PrefixInjective("inboxes-", x, y);
    case (InboxCommits(x), InboxCommits(y)) =>
      PrefixInjective("inboxCommits-", x, y);
    case (Digests, Digests) =>
    case (Instances, Instances) =>
    case (Digests, Instances) =>
      assert StreamName(a)[0] != StreamName(b)[0];
    case (Digests, Inboxes(_)) =>
      assert StreamName(a)[0] != StreamName(b)[0];
    case (Digests, InboxCommits(_)) =>
      assert StreamName(a)[0] != StreamName(b)[0];
    case (Instances, Digests) =>
      assert StreamName(a)[0] != StreamName(b)[0];
    case (Instances, Inboxes(_)) =>
      assert StreamName(a)[2] != StreamName(b)[2];
    case (Instances, InboxCommits(_)) =>
      assert StreamName(a)[2] != StreamName(b)[2];
    case (Inboxes(_), Digests) =>
      assert StreamName(a)[0] != StreamName(b)[0];
    case (Inboxes(_), Instances) =>
      assert StreamName(a)[2] != StreamName(b)[2];
    case (Inboxes(_), InboxCommits(_)) =>
      assert StreamName(a)[5] != StreamName(b)[5];
    case (InboxCommits(_), Digests) =>
      assert StreamName(a)[0] != StreamName(b)[0];
    case (InboxCommits(_), Instances) =>
      assert StreamName(a)[2] != StreamName(b)[2];
    case (InboxCommits(_), Inboxes(_)) =>
      assert StreamName(a)[5] != StreamName(b)[5];
  }

  /** The partition key `getPartitionState` asks for: `name + '-' + uuid`. */
  function PartitionKey(name: string, id: string): string {
    name + "-" + id
  }

  /** For a fixed projection name, the key determines the identifier. */
  lemma PartitionKeyInjective(name: string, x: string, y: string)
    ensures PartitionKey(name, x) == PartitionKey(name, y) ==> x == y
  {
    assert PartitionKey(name, x) == (name + "-") + x;
    assert PartitionKey(name, y) == (name + "-") + y;
    PrefixInjective(name + "-", x, y);
  }

  /** Without a fixed name the key is ambiguous: a dash may belong to either
      part. Every name the routes use is a constant, so this never arises. */
  lemma PartitionKeyNeedsFixedName()
    ensures PartitionKey("a-b", "c") == PartitionKey("a", "b-c")
  {
  }

  /** The read models the routes query. */
  datatype Partition =
    | DigestState(digestId: string)       // projection "digest", key "digest-" + id
    | InboxState(inboxId: string)         // projection "inbox", key "inbox-" + id
    | InstanceState(instanceId: string)   // projection "instance", key "instance-" + id
    | DigestInboxes(digestId: string)     // projection "inboxes-for-digest", key "digestInbox-" + id

  function ProjectionName(p: Partition): string {
    match p
    case DigestState(_) => "digest"
    case InboxState(_) => "inbox"
    case InstanceState(_) => "instance"
    case DigestInboxes(_) => "inboxes-for-digest"
  }

  function PartitionName(p: Partition): string {
    match p
    case DigestState(id) => PartitionKey("digest", id)
    case InboxState(id) => PartitionKey("inbox", id)
    case InstanceState(id) => PartitionKey("instance", id)
    case DigestInboxes(id) => PartitionKey("digestInbox", id)
  }

  /** Different read models never share a partition key. */
  lemma PartitionNameInjective(a: Partition, b: Partition)
    ensures PartitionName(a) == PartitionName(b) ==> a == b
  {
    match (a, b)
    case (DigestState(x), DigestState(y)) =>
      PartitionKeyInjective("digest", x, y);
    case (InboxState(x), InboxState(y)) =>
      PartitionKeyInjective("inbox", x, y);
    case (InstanceState(x), InstanceState(y)) =>
      PartitionKeyInjective("instance", x, y);
    case (DigestInboxes(x), DigestInboxes(y)) =>
      PartitionKeyInjective("digestInbox", x, y);
    case (DigestState(_), InboxState(_)) =>
      assert PartitionName(a)[0] != PartitionName(b)[0];
    case (DigestState(_), InstanceState(_)) =>
      assert PartitionName(a)[0] != PartitionName(b)[0];
    case (DigestState(_), DigestInboxes(_)) =>
      assert PartitionName(a)[6] != PartitionName(b)[6];
    case (InboxState(_), DigestState(_)) =>
      assert PartitionName(a)[0] != PartitionName(b)[0];
    case (InboxState(_), InstanceState(_)) =>
      assert PartitionName(a)[2] != PartitionName(b)[2];
    case (InboxState(_), DigestInboxes(_)) =>
      assert PartitionName(a)[0] != PartitionName(b)[0];
    case (InstanceState(_), DigestState(_)) =>
      assert PartitionName(a)[0] != PartitionName(b)[0];
    case (InstanceState(_), InboxState(_)) =>
      assert PartitionName(a)[2] != PartitionName(b)[2];
    case (InstanceState(_), DigestInboxes(_)) =>
      assert PartitionName(a)[0] != PartitionName(b)[0];
    case (DigestInboxes(_), DigestState(_)) =>
      assert PartitionName(a)[6] != PartitionName(b)[6];
    case (DigestInboxes(_), InboxState(_)) =>
      assert PartitionName(a)[0] != PartitionName(b)[0];
    case (DigestInboxes(_), InstanceState(_)) =>
      assert PartitionName(a)[0] != PartitionName(b)[0];
  }
}

=== FILE: results.dfy ===
/** Optional values and success/failure results used throughout the model. */
module Results {

  /** A value that may be absent (JavaScript `undefined` for a header or an option). */
  datatype Option<+T> = None | Some(value: T)

  /** The outcome of a computation that may throw: the value or the thrown error. */
  datatype Result<+T, +E> = Success(value: T) | Failure(error: E)
}

=== FILE: store.dfy ===
/** The event store as an append-only log of batches. A route's outcome
    changes the log only by the one batch it appended, and only when the
    store accepted it. */
module Store {
  import opened Results
  import opened Events
  import opened Http

  type Log = seq<Append>

  /** The log after the store has answered a route's append. */
  function Record(log: Log, o: Outcome, reply: AppendReply): Log {
    if o.append.Some? && reply.Appended? then log + [o.append.value] else log
  }

  /** The events of one stream, in append order. */
  function StreamEvents(log: Log, stream: string): seq<Event> {
    if |log| == 0 then []
    else
      var last := log[|log| - 1];
      StreamEvents(log[..|log| - 1], stream) + (if last.stream == stream then last.events else [])
  }

  /** Nothing is ever removed or rewritten: the old log is a prefix of the new one. */
  lemma RecordExtends(log: Log, o: Outcome, reply: AppendReply)
    ensures |log| <= |Record(log, o, reply)|
    ensures Record(log, o, reply)[..|log|] == log
    ensures |Record(log, o, reply)| <= |log| + 1
  {
  }

  /** A recorded batch extends its own stream by exactly its events, in
      order, and leaves every other stream as it was. */
  lemma {:induction false} RecordStreams(log: Log, o: Outcome, reply: AppendReply, stream: string)
    ensures StreamEvents(Record(log, o, reply), stream) ==
      if o.append.Some? && reply.Appended? && o.append.value.stream == stream
      then StreamEvents(log, stream) + o.append.value.events
      else StreamEvents(log, stream)
  {
    var log' := Record(log, o, reply);
    if log' != log {
      assert log'[..|log'| - 1] == log;
    }
  }

  /** An outcome that appends nothing leaves the log unchanged. */
  lemma NoAppendNoChange(log: Log, o: Outcome, reply: AppendReply)
    requires o.append.None?
    ensures Record(log, o, reply) == log
  {
  }
}

=== FILE: text.dfy ===
/** String operations of the JavaScript runtime that the routes rely on:
    decimal rendering of numbers, lower-casing, `trim`, UTF-16 `length`
    and the `split('/').pop()` idiom. */
module Text {

  // ---------------------------------------------------------------------------
  // Decimal digits
  // ---------------------------------------------------------------------------

  predicate IsDigit(c: char) {
    '0' <= c <= '9'
  }

  function DigitChar(d: nat): (c: char)
    requires d < 10
    ensures IsDigit(c)
  {
    ['0', '1', '2', '3', '4', '5', '6', '7', '8', '9'][d]
  }

  function DigitValue(c: char): nat
    requires IsDigit(c)
  {
    (c as int - '0' as int) as nat
  }

  /** The decimal text of a natural number, as `String(n)` renders it. */
  function NatToString(n: nat): (s: string)
    ensures |s| >= 1
    ensures forall i :: 0 <= i < |s| ==> IsDigit(s[i])
    ensures s[0] == '0' ==> n == 0
  {
    if n < 10 then [DigitChar(n)] else NatToString(n / 10) + [DigitChar(n % 10)]
  }

  /** The number a string of decimal digits denotes (reading it back). */
  function DigitsValue(s: string): nat
    requires forall i :: 0 <= i < |s| ==> IsDigit(s[i])
  {
    if |s| == 0 then 0 else DigitsValue(s[..|s| - 1]) * 10 + DigitValue(s[|s| - 1])
  }

  lemma DigitRoundTrip(d: nat)
    requires d < 10
    ensures DigitValue(DigitChar(d)) == d
  {
  }

  /** Rendering a number and reading it back gives the number: the text in a
      message such as "contains 141 characters" names exactly that count. */
  lemma {:induction false} NatToStringRoundTrip(n: nat)
    ensures DigitsValue(NatToString(n)) == n
  {
    var s := NatToString(n);
    if n < 10 {
      assert s[..0] == [];
      DigitRoundTrip(n);
    } else {
      var prefix := NatToString(n / 10);
      assert s[..|s| - 1] == prefix;
      NatToStringRoundTrip(n / 10);
      DigitRoundTrip(n % 10);
    }
  }

  /** Distinct numbers render to distinct texts. */
  lemma NatToStringInjective(m: nat, n: nat)
    ensures NatToString(m) == NatToString(n) ==> m == n
  {
    NatToStringRoundTrip(m);
    NatToStringRoundTrip(n);
  }

  /** The decimal text of an integer, with a leading '-' when negative. */
  function IntToString(i: int): (s: string)
    ensures |s| >= 1
    ensures s[0] == '-' <==> i < 0
  {
    if i < 0 then "-" + NatToString(-i) else NatToString(i)
  }

  // ---------------------------------------------------------------------------
  // Case
  // ---------------------------------------------------------------------------

  function ToLowerChar(c: char): char {
    if 'A' <= c <= 'Z' then (c as int + 32) as char else c
  }

  function ToUpperChar(c: char): char {
    if 'a' <= c <= 'z' then (c as int - 32) as char else c
  }

  /** `toLowerCase()`, restricted to the ASCII letters. */
  function Lower(s: string): (r: string)
    ensures |r| == |s|
    ensures forall i :: 0 <= i < |s| ==> r[i] == ToLowerChar(s[i])
  {
    seq(|s|, i requires 0 <= i < |s| => ToLowerChar(s[i]))
  }

  const JsonMediaType: string := "application/json"

  /** The Content-Type test every POST route starts with: the header is
      present and equals `application/json` ignoring case. */
  predicate IsJsonContentType(contentType: string) {
    Lower(contentType) == JsonMediaType
  }

  /** The case-insensitive comparison, stated letter by letter: each
      character is either the expected one or its upper-case form. */
  lemma JsonContentTypeCharacterised(ct: string)
    ensures IsJsonContentType(ct) <==>
      |ct| == |JsonMediaType| &&
      forall i :: 0 <= i < |ct| ==> ct[i] == JsonMediaType[i] || ct[i] == ToUpperChar(JsonMediaType[i])
  {
    if |ct| == |JsonMediaType| {
      var target := JsonMediaType;
      assert forall i :: 0 <= i < |target| ==> target[i] == '/' || 'a' <= target[i] <= 'z';
      if IsJsonContentType(ct) {
        forall i | 0 <= i < |ct|
          ensures ct[i] == target[i] || ct[i] == ToUpperChar(target[i])
        {
          assert Lower(ct)[i] == target[i];
        }
      }
      if forall i :: 0 <= i < |ct| ==> ct[i] == target[i] || ct[i] == ToUpperChar(target[i]) {
        assert Lower(ct) == target by {
          forall i | 0 <= i < |ct|
            ensures Lower(ct)[i] == target[i]
          {
            assert ct[i] == target[i] || ct[i] == ToUpperChar(target[i]);
          }
        }
      }
    }
  }

  // ---------------------------------------------------------------------------
  // Whitespace and trim
  // ---------------------------------------------------------------------------

  /** The characters `String.prototype.trim` removes: white space and line
      terminators as the ECMAScript grammar defines them. */
  predicate IsJsWhitespace(c: char) {
    || c == '\U{0009}' || c == '\U{000A}' || c == '\U{000B}' || c == '\U{000C}' || c == '\U{000D}'
    || c == ' ' || c == '\U{00A0}' || c == '\U{1680}'
    || ('\U{2000}' <= c <= '\U{200A}')
    || c == '\U{2028}' || c == '\U{2029}' || c == '\U{202F}' || c == '\U{205F}'
    || c == '\U{3000}' || c == '\U{FEFF}'
  }

  predicate IsBlank(s: string) {
    forall i :: 0 <= i < |s| ==> IsJsWhitespace(s[i])
  }

  function TrimStart(s: string): (r: string)
    ensures |r| <= |s| && r == s[|s| - |r|..]
    ensures IsBlank(s[..|s| - |r|])
    ensures r == [] || !IsJsWhitespace(r[0])
  {
    if |s| > 0 && IsJsWhitespace(s[0]) then
      var r := TrimStart(s[1..]);
      assert s[..|s| - |r|] == [s[0]] + s[1..][..|s[1..]| - |r|];
      r
    else s
  }

  function TrimEnd(s: string): (r: string)
    ensures |r| <= |s| && r == s[..|r|]
    ensures IsBlank(s[|r|..])
    ensures r == [] || !IsJsWhitespace(r[|r| - 1])
  {
    if |s| > 0 && IsJsWhitespace(s[|s| - 1]) then
      var r := TrimEnd(s[..|s| - 1]);
      assert s[|r|..] == s[..|s| - 1][|r|..] + [s[|s| - 1]];
      r
    else s
  }

  /** `trim()`: both ends stripped of white space. */
  function Trim(s: string): string {
    TrimStart(TrimEnd(s))
  }

  /** `s.trim().length === 0` holds exactly when every character of `s`
      is white space. */
  lemma TrimEmptyIffBlank(s: string)
    ensures Trim(s) == [] <==> IsBlank(s)
  {
    var e := TrimEnd(s);
    assert s == e + s[|e|..];
    if Trim(s) == [] {
      assert e[..|e|] == e;
      if |e| > 0 {
        assert false;
      }
    } else if IsBlank(s) {
      if |e| > 0 {
        assert false;
      }
    }
  }

  // ---------------------------------------------------------------------------
  // UTF-16 length
  // ---------------------------------------------------------------------------

  /** A character outside the Basic Multilingual Plane takes two UTF-16
      code units. */
  function CodeUnits(c: char): nat {
    if c as int > 0xFFFF then 2 else 1
  }

  /** JavaScript's `length` of a string: the number of UTF-16 code units. */
  function Utf16Length(s: string): (n: nat)
    ensures |s| <= n <= 2 * |s|
    ensures (forall i :: 0 <= i < |s| ==> s[i] as int <= 0xFFFF) ==> n == |s|
  {
    if |s| == 0 then 0 else Utf16Length(s[..|s| - 1]) + CodeUnits(s[|s| - 1])
  }

  // ---------------------------------------------------------------------------
  // Path segments
  // ---------------------------------------------------------------------------

  /** `s.split('/').pop()`: the text after the last '/', or all of `s` when
      it holds none. It is the longest suffix of `s` without a '/'. */
  function LastSegment(s: string): (r: string)
    ensures |r| <= |s| && r == s[|s| - |r|..]
    ensures '/' !in r
    ensures |r| == |s| || s[|s| - |r| - 1] == '/'
  {
    if |s| == 0 || s[|s| - 1] == '/' then []
    else
      var r := LastSegment(s[..|s| - 1]);
      assert s[|s| - |r| - 1..] == s[..|s| - 1][|s| - 1 - |r|..] + [s[|s| - 1]];
      r + [s[|s| - 1]]
  }

  lemma LastSegmentOfBranchRef()
    ensures LastSegment("refs/heads/main") == "main"
  {
    var s := "refs/heads/main";
    var r := LastSegment(s);
    assert s[10] == '/';
    if |r| > 4 {
      assert false;
    }
    if |r| < 4 {
      assert false;
    }
  }
}

=== FILE: translator_factory.dfy ===
/** Choice of the translator for an inbound webhook: GitHub first, then
    GitLab, then none. The translators' `canTranslate` tests are opaque
    predicates over the request. */
module TranslatorFactory {
  import opened Results
  import opened Json
  import opened Http

  datatype Translator = GitHub | GitLab

  /** `TranslatorFactory.create(request)`. */
  function Create(request: Request, gitHubCanTranslate: Request -> bool, gitLabCanTranslate: Request -> bool)
    : (r: Option<Translator>)
    ensures r == Some(GitHub) <==> gitHubCanTranslate(request)
    ensures r == Some(GitLab) <==> !gitHubCanTranslate(request) && gitLabCanTranslate(request)
    ensures r == None <==> !gitHubCanTranslate(request) && !gitLabCanTranslate(request)
  {
    if gitHubCanTranslate(request) then Some(GitHub)
    else if gitLabCanTranslate(request) then Some(GitLab)
    else None
  }

  /** The registry view of selection: the first variant, in priority order,
      whose test accepts. */
  function FirstAccepting(registry: seq<(Translator, bool)>): Option<Translator> {
    if |registry| == 0 then None
    else if registry[0].1 then Some(registry[0].0)
    else FirstAccepting(registry[1..])
  }

  /** The factory is the registry scan over [GitHub, GitLab]. */
  lemma CreateIsPriorityScan(request: Request, gitHubCanTranslate: Request -> bool, gitLabCanTranslate: Request -> bool)
    ensures Create(request, gitHubCanTranslate, gitLabCanTranslate) ==
      FirstAccepting([(GitHub, gitHubCanTranslate(request)), (GitLab, gitLabCanTranslate(request))])
  {
    var registry := [(GitHub, gitHubCanTranslate(request)), (GitLab, gitLabCanTranslate(request))];
    assert registry[1..] == [(GitLab, gitLabCanTranslate(request))];
    assert registry[1..][1..] == [];
    assert FirstAccepting(registry[1..][1..]) == None;
  }

  /** Selection depends on nothing but the two tests' answers: requests the
      tests cannot tell apart get the same translator. */
  lemma CreateDependsOnlyOnTests(a: Request, b: Request, gitHubCanTranslate: Request -> bool, gitLabCanTranslate: Request -> bool)
    requires gitHubCanTranslate(a) == gitHubCanTranslate(b)
    requires gitLabCanTranslate(a) == gitLabCanTranslate(b)
    ensures Create(a, gitHubCanTranslate, gitLabCanTranslate) == Create(b, gitHubCanTranslate, gitLabCanTranslate)
  {
  }

  /** `create(request)` against a GitHub translator module that may lack
      `canTranslate` (`None`): calling the absent method throws a TypeError
      before either test answers. */
  function CreateWith(request: Request, gitHubCanTranslate: Option<Request -> bool>,
                      gitLabCanTranslate: Request -> bool): (r: Result<Option<Translator>, JsError>)
    ensures r.Failure? <==> gitHubCanTranslate.None?
    ensures r.Failure? ==> r.error == NotAFunction("canTranslate")
    ensures gitHubCanTranslate.Some? ==> r == Success(Create(request, gitHubCanTranslate.value, gitLabCanTranslate))
  {
    match gitHubCanTranslate
    case None => Failure(NotAFunction("canTranslate"))
    case Some(test) => Success(Create(request, test, gitLabCanTranslate))
  }

  /** `create(request)` as written: the GitHub translator module defines
      `translatePush` but no `canTranslate`. */
  function CreateAsWritten(request: Request, gitLabCanTranslate: Request -> bool): (r: Result<Option<Translator>, JsError>)
    ensures r == Failure(NotAFunction("canTranslate"))
  {
    CreateWith(request, None, gitLabCanTranslate)
  }

  /** So every call throws, whatever the request and whatever the GitLab
      test would answer: no translator is ever chosen. */
  lemma CreateAsWrittenAlwaysThrows(request: Request, gitLabCanTranslate: Request -> bool)
    ensures CreateAsWritten(request, gitLabCanTranslate) == Failure(NotAFunction("canTranslate"))
    ensures forall test: Request -> bool :: CreateWith(request, Some(test), gitLabCanTranslate).Success?
  {
  }
}
